=== FILE: README.md ===
# ts-quickstore core in Dafny

A model of the core of ts-quickstore, a small observable state container written in
TypeScript:

- **Utilities.** The deep utilities in `src/lib/utils.ts`: `deep_diff`, `isObj`, `isArray` and `error`.
- **Event bus.** The bus in `src/lib/EventManager.ts`: `on`, `off` and `fire`.
- **The store.** `src/store.ts` covers:
  - the write gate behind every accessor proxy (`proxy_set`);
  - `get_value_by_path` and the built-in `set_property` mutation;
  - `commit`, `dispatch` and `commit_history_batch`;
  - update groups (`will_update` / `did_update`);
  - `undo`, `redo` and `setup_state`;
  - observers (`add_observer`'s path predicate and `remove_observer`).

The state tree is an immutable JSON-like value (`Json.Json`): undefined, null, booleans,
integers, strings, arrays and plain objects. JavaScript's own semantics appear where the
store depends on them:

- For-in visits the own entries of objects, arrays and strings.
- Array elements are addressed by canonical index keys.
- Strict mode throws when a property of a primitive is assigned.
- Reading a property of undefined or null throws.
- `JSON.parse(undefined)` throws.

An operation that can throw returns `Store.Outcome`: `Done(store)` or
`Threw(store, error)`. In the `Threw` case the store is left as the code leaves it at the
throw, so a failed `commit` keeps its mutating flag raised and a failed `undo` has already
popped its entry. Events are not delivered to callbacks. Instead, the store records the
path of every `STATE_CHANGED` fire in `changes`, and `Store.Notified` says which observers
a fire at a given path calls.

Modules:

- `wrappers.dfy`: `Option` and `Result`.
- `json.dfy`: values, truthiness, array index keys, own entries.
- `utils.dfy`: the deep utilities.
- `tree.dfy`: reading and replacing along paths.
- `event_manager.dfy`: the bus.
- `paths.dfy`: path arguments and the observer predicate.
- `store.dfy`: the store operations.
- `store_laws.dfy`: properties relating several operations.
- `findings.dfy`: two departures from the intended behaviour, each with a corrected version.

Where the code does something its names, messages or comments do not suggest, the model follows the code:

- **Unknown mutation key.** `commit` raises the mutating flag and then calls `undefined`. So an unknown key throws a TypeError and leaves the flag raised. It is not a dedicated "mutation not found" error.
- **Undo with one entry.** `undo` pops before it checks. An `undo` with a single history entry throws its message string, and the history is then empty.
- **Writes outside a mutation.** Outside a mutation and outside silent modification, a write is dropped, not applied. The assignment still reports success.
- **Missing `will_update` path.** `will_update()` with no path does not capture the root: walking `undefined` throws.
- **What `did_update` records.** `did_update` does not push the diff. `state_diff` stays `{}`, so the group's record is empty, and `build_tree` writes into the diff object itself. The group's entry is therefore the state overlaid with the batch records.
- **Falsy checkpoints.** `will_update` stores whatever value the path holds, but `commit` and `did_update` test the checkpoint for truthiness (src/store.ts:96, 260). So a path holding null, 0, false or "" opens no group, and the next commit records its entry at once.
- **Redo and `commit_history_batch`.** `commit_history_batch` folds the *pre-write* copies of the written containers into the entry. The source's comments describe a history entry as the snapshot a mutation leads to (src/lib/common.ts:12), the top entry as "the mutation that brings us to our current state" (src/store.ts:209), and `redo` as committing the last reverted action (src/store.ts:222). For a write that overwrites a root key, the entry instead holds the state from before the write (see Findings).

## Model

| member | source | states |
|---|---|---|
| Utils.DeepCopy | src/lib/utils.ts:55-57 | a copy equals the value copied (the JSON round trip's losses are listed under Left out) |
| Utils.StrictEq | src/lib/utils.ts:66 | `===` holds only between equal values, never between two containers, and between primitives exactly when they are equal |
| Utils.KeyChangeVerdict | src/lib/utils.ts:65-74 | the first loop records a key `o2` lacks as undefined; it skips a key only when both sides hold plain objects or the same primitive; a recorded entry is `o2`'s value unless both sides hold plain objects |
| Utils.Error | src/lib/utils.ts:14-17 | `error` never returns normally: it always throws its first argument |
| Utils.IsObj | src/lib/utils.ts:20-25 | an object in `isObj`'s sense is never null and never an array |
| Utils.IsArray | src/lib/utils.ts:47-52 | null is never classified as an array |
| Utils.DeepDiff | src/lib/utils.ts:81-86 | the diff is `false` exactly when no key was reported, and otherwise the object holding exactly the reported keys |
| Utils.Changes | src/lib/utils.ts:63-80 | every reported key is an own key of one of the two objects |
| Utils.DiffValues | src/lib/utils.ts:60-87 | on arbitrary values the diff throws a TypeError exactly when one side has own entries and the other is not an object or array; on two objects it is the object diff; a result is `false` or a non-empty object |
| Utils.DiffReportsAddedKey | src/lib/utils.ts:76-80 | a key only the second object owns is reported with the second object's value |
| Utils.DiffReportsChangedValue | src/lib/utils.ts:65-67 | a shared key whose values differ, and are not both plain objects, is reported with the second object's value |
| Utils.DiffReportsRemovedKey | src/lib/utils.ts:65-67 | a key the second object lacks is reported, with the value undefined |
| Utils.DiffRecursesIntoObjects | src/lib/utils.ts:69-73 | where both sides hold plain objects, the key is reported exactly when the nested diff is not `false`, and its entry is that nested diff |
| Utils.DiffReportsArrays | src/lib/utils.ts:65-67 | an array on either side of a shared key is always reported with the second side's value, since two arrays are never `===` |
| Utils.DiffSkipsEqualPrimitives | src/lib/utils.ts:65-67 | equal primitives under a shared key are never reported |
| Utils.DiffFalseIffEqual | src/lib/utils.ts:60-87 | on trees without arrays, the diff is `false` if and only if the two trees are equal |
| Json.TruthyClassifies | src/store.ts:96 | `Truthy` models the `!history_checkpoint` tests (here and at src/store.ts:260): every object and array is truthy, and a value is falsy exactly when it is undefined, null, false, 0 or "" |
| Json.OwnEntries | src/lib/utils.ts:63-64 | the keys for-in visits with `hasOwnProperty`: an object's fields, and nothing for a value that is neither a container nor a string |
| Json.ArrayEntries | src/lib/utils.ts:63-64 | an array's own keys are exactly its canonical index keys, each mapped to its element |
| Json.IndexKeyRoundTrip | src/store.ts:284-286 | the property key of index `i` parses back to `i` |
| Json.ParseIndexRoundTrip | src/store.ts:284-286 | a key that parses as an index is that index's canonical key, so one element has one key |
| Tree.GetField | src/store.ts:285 | reading a property throws a TypeError exactly on undefined and null; an object's missing key reads undefined; numbers and booleans have no properties |
| Tree.GetPathFailsAtNullish | src/store.ts:282-288 | a walk throws exactly when some proper prefix of the path reads undefined or null |
| Tree.PutField | src/store.ts:138 | a write keeps the container's kind; an object gains the key; an index write grows an array to cover the index; a non-negative integer `length` resizes it, keeping the elements in range; any other named key leaves the array as it was |
| Tree.PutPath | src/store.ts:138 | replacing at a non-empty path keeps the root's kind |
| Tree.Assign | src/store.ts:138 | an assignment through the view at `path` leaves `path` reaching the container with that one property written |
| Tree.GetPath | src/store.ts:282-288 | walking a path fails only by a TypeError, and never on the empty path |
| Tree.GetPathAppend | src/store.ts:284-286 | walking `p + q` is walking `p`, then `q` from where `p` ended |
| Tree.PutFieldReadsBack | src/store.ts:138 | a property set on an object, or on an array at an index key, reads back as the value set |
| Tree.PutFieldOtherKey | src/store.ts:138 | setting one property of an object, or an in-range index of an array, leaves every other property's value as it was (an index past the end changes `length`, and a `length` write drops elements) |
| Tree.PutPathReadsBack | src/store.ts:138 | replacing the value at a path that reaches a container makes the path read back the new value |
| Tree.PutPathDisjoint | src/store.ts:138 | replacing the value at one path leaves every path that parts ways with it reading as before |
| Tree.AssignReadsBack | src/store.ts:138 | an assignment through the view at `path`, on an object view or at an index key on an array, reads back at `path + [key]` |
| Tree.AssignKeepsView | src/store.ts:138 | after an assignment the path still reaches a container, equal to the old container with that property written |
| Tree.AssignOtherKey | src/store.ts:138 | assigning one key of an object, or an in-range index of an array, leaves every path through any other key of it reading as before |
| Tree.AssignDisjoint | src/store.ts:138 | assigning below `path` leaves every path that parts ways with `path` reading as before |
| EventManager.Empty | src/lib/EventManager.ts:10 | a new bus has no handler for any event |
| EventManager.On | src/lib/EventManager.ts:17-25 | subscribing creates the event's table if missing and appends the handler under a fresh id; other events are untouched and ids stay unique |
| EventManager.SetHandleExisting | src/lib/EventManager.ts:23 | setting an id the table already holds replaces that handler in place and keeps its position |
| EventManager.Off | src/lib/EventManager.ts:27-37 | unsubscribing an unknown event or id changes nothing; afterwards the id is absent from the event's table, and other events are untouched |
| EventManager.OffRemovesExactly | src/lib/EventManager.ts:36 | unsubscribing removes exactly that handler and keeps the order of the rest |
| EventManager.Invoked | src/lib/EventManager.ts:44-48 | a handler is called exactly when it has no check or its check accepts the arguments |
| EventManager.Fire | src/lib/EventManager.ts:39-49 | firing an event without a table calls nothing; otherwise it calls exactly the handlers whose checks accept |
| EventManager.InvokedAppend | src/lib/EventManager.ts:44-48 | handlers are called in subscription order |
| EventManager.FireAfterOn | src/lib/EventManager.ts:17-25 | a new subscriber is called after all earlier ones, exactly when its check accepts |
| EventManager.FireAfterOff | src/lib/EventManager.ts:36 | an unsubscribed handler is never called |
| EventManager.UnsubscribeScenario | test/main.ts:172-186 | with two subscribers, removing the second leaves only the first called, and removing both leaves none |
| Paths.Split | src/store.ts:86 | splitting on '.' gives at least one component, none containing '.' |
| Paths.SplitJoin | src/store.ts:86 | joining the split components with '.' gives back the string |
| Paths.JoinSplit | src/store.ts:175 | splitting the join of dot-free components gives back the components |
| Paths.EventPath | src/store.ts:92-95 | a missing path and the empty string announce the root; a dotted string announces its dot-free components, which join back to it; whenever the walk succeeds the announced path is the walked one |
| Paths.WalkPath | src/store.ts:83-88 | the walked path is the split string or the given segments; a missing path or an empty string throws |
| Paths.CheckPaths | src/store.ts:175 | one path string is split into one observed path; an array gives one observed path per element, in order |
| Paths.FindDiff | src/store.ts:185-187 | no differing component is found exactly when every observed component from that index on is `@each` or equals the changed one |
| Paths.FindMatch | src/store.ts:182-190 | no observed path is found exactly when none covers the changed path |
| Paths.ObserverCheck | src/store.ts:177-193 | the observer accepts a change exactly when the changed path is empty or some observed path covers it component by component, with `@each` as a wildcard |
| Paths.ObserverMatchesBelow | src/store.ts:183-184 | an observer that accepts a non-empty changed path accepts every path below it |
| Paths.ObserverArrayIsDisjunction | src/store.ts:175 | observing an array of paths accepts exactly what observing one of its elements accepts |
| Paths.ObserverArrayIsNotOnePath | src/store.ts:175 | an array `[a, b]` is two alternatives, not the dotted path `a.b` |
| Paths.ParentObservers | src/store.ts:177-193 | `parent` and `parent.@each` observers see changes below `parent`, an unrelated key's observer does not, and every observer sees a root-level change |
| Store.GetValueByPath | src/store.ts:282-288 | the empty path reads the whole state; a read fails only by a TypeError, and exactly when some proper prefix of the path reads undefined or null |
| Store.Write | src/store.ts:130-147 | a write reaching no container throws a TypeError and changes nothing; while mutating it records the pre-write copy of the container and announces `path + [key]`; while silent it only applies; otherwise nothing changes; only the tree, batch and change log can change |
| Store.WriteFields | src/store.ts:44-46 | the field writes change only the tree, batch and change log; while mutating, a completed loop adds one batch record and one change per field; a failure is a TypeError |
| Store.WriteAll | src/store.ts:253-257 | a mutation's assignments change only the tree, batch and change log; while mutating, completed assignments add one batch record and one change each; a failure is a TypeError |
| Store.SetPropertyBody | src/store.ts:38-47 | `set_property` throws if its path walks through undefined or null, even with no fields; otherwise an empty payload changes nothing |
| Store.RunBody | src/store.ts:257 | running a mutation changes only the tree, batch and change log, and only extends the batch and the log |
| Store.Overlay | src/store.ts:268-271 | folding records with `Object.assign` yields the union of the state's keys and every record's keys |
| Store.CommitHistoryBatch | src/store.ts:267-277 | exactly one "Mutation" entry is pushed, over the state's keys and every record's keys; the batch is emptied and nothing else changes |
| Store.Commit | src/store.ts:250-265 | an unknown key throws with the flag raised; a commit completes exactly when its mutation does; with no open group it pushes one "Mutation" entry and empties the batch; inside a group the history is untouched and the batch only grows; a throw leaves the flag raised and the history as it was |
| Store.CommitAll | src/store.ts:242-246 | an action's commits never touch the future, the checkpoint or the observers, and inside a group they leave the history alone |
| Store.Dispatch | src/store.ts:237-247 | an unknown action throws the message naming it and changes nothing; a known action's effect is its commits |
| StoreLaws.DispatchOneCommit | src/store.ts:242-246 | an action that makes one commit has exactly that commit's effect, and one that makes none leaves the store as it was |
| Store.WillUpdate | src/store.ts:83-89 | the checkpoint becomes the value the path walks to, exactly when that value is defined (the group then counts as open only if the value is truthy); a missing path throws a TypeError, an undefined value a SyntaxError, and a throw changes nothing |
| Store.GroupDiff | src/store.ts:99-100 | the group's diff is the checkpoint diffed against the value now at the path; failures are TypeErrors |
| Store.CloseGroup | src/store.ts:117-122 | closing a group pushes one entry, empties the batch and clears the checkpoint |
| Store.DidUpdate | src/store.ts:91-123 | the change at the path is always announced; with no open group nothing else happens; with one, the group closes (one entry, empty batch, no checkpoint) exactly when the diff succeeds and is not `false`, and otherwise throws a TypeError; the tree, future and observers never change |
| Store.Undo | src/store.ts:208-220 | with fewer than two entries it throws "Calling undo with no history" after popping; with two or more and no group open, the top entry moves to the front of the future, the entry beneath it is loaded, and a root-level change is announced |
| Store.Redo | src/store.ts:223-234 | with no future it throws "Calling redo with no future" and changes nothing; with a future and no group open, the first future entry moves onto the history, is loaded, and a root-level change is announced |
| Store.SetupState | src/store.ts:62-77 | the state becomes the tree, the history restarts at one "INIT_STATE" entry of it, the future is emptied, and a root-level change is announced |
| Store.New | src/store.ts:35-51 | a new store holds the given state (or `{}`), always has `set_property`, starts at one "INIT_STATE" entry with no flags raised and no group open |
| Store.AddObserver | src/store.ts:174-196 | an observer is appended to the change event's handlers with its observed paths as the check; nothing else changes |
| Store.Notified | src/store.ts:174-193 | a change at a path calls exactly the change handlers that have no check or whose observed paths match it |
| Store.RemoveObserver | src/store.ts:201-203 | the observer's id is gone from the change event's handlers; nothing else changes |
| StoreLaws.WriteReadsBack | src/store.ts:132-143 | while mutating or silent, a write through a view, on an object view or at an index key on an array, reads back at `path + [key]` |
| StoreLaws.WriteKeepsOtherKeys | src/store.ts:130-147 | a write through a view of an object, or to an in-range index through a view of an array, leaves every path through another key of that container unchanged |
| StoreLaws.WriteKeepsDisjointPaths | src/store.ts:130-147 | a write through a view leaves every path that parts ways with the view's path unchanged |
| StoreLaws.WriteKeepsView | src/store.ts:130-147 | a write keeps its view in place, still an object if it was one |
| StoreLaws.WriteFieldsEffect | src/store.ts:44-46 | while mutating or silent, assigning distinct fields on an object view makes each read back and leaves every other key and every disjoint path unchanged |
| StoreLaws.SetPropertyEffect | src/store.ts:38-47 | committing `set_property` on an object path succeeds, makes every payload field hold its value, and changes nothing else in the tree |
| StoreLaws.OverlayLastWins | src/store.ts:269-271 | in the folded entry a key takes its value from the last record holding it |
| StoreLaws.OverlayUntouched | src/store.ts:268-271 | a key no record holds keeps its value from the state |
| StoreLaws.OverlayEmptyRecord | src/store.ts:117-121 | the empty "BatchedMutation" record adds nothing to the folded entry |
| StoreLaws.CommitEntry | src/store.ts:250-277 | a commit with no open group pushes exactly the state its mutation left, overlaid with every batch record in order |
| StoreLaws.WriteAllAnnounces | src/store.ts:132-139 | while mutating, each assignment adds one batch record and announces its own path, in order |
| StoreLaws.ThrownCommitStaysMutating | src/store.ts:251-263 | after a commit throws, the flag stays raised, so a later stray write is still recorded and announced |
| StoreLaws.UndoThenRedo | src/store.ts:208-234 | with no open group, undo then redo restores both stacks and reloads the entry that was on top |
| StoreLaws.RedoThenUndo | src/store.ts:208-234 | with no open group, redo then undo restores both stacks and reloads the entry that was on top |
| StoreLaws.NoUndoAfterSetup | src/store.ts:68-73 | right after setup there is nothing to undo: undo throws, having popped the only entry |
| StoreLaws.GroupAddsOneEntry | src/store.ts:83-123 | a closed group pushes one entry, the final state overlaid with every record the group collected, and clears the checkpoint and batch |
| StoreLaws.FalsyCheckpointOpensNoGroup | src/store.ts:83-97 | after `will_update` on a path holding a falsy value, the next successful commit pushes its entry and empties the batch, as if no group were open |
| StoreLaws.DidUpdateOnlyFires | src/store.ts:95-97 | with no group open, `did_update` only announces the change |
| StoreLaws.ObserverNotifiedIffMatches | src/store.ts:174-196 | a new observer is called on a change exactly when its path predicate accepts it, after every earlier observer |
| StoreLaws.RemovedObserverSilent | src/store.ts:201-203 | a removed observer is never called again |
| Findings.RedoReloadsOverwrittenValue | src/store.ts:267-277 | as written, overwriting a root key with a primitive pushes the pre-commit state, and undo then redo reloads it without the write |
| Findings.CommitHistoryBatchCorrected | src/store.ts:267-277 | the corrected fold differs from the original only in the entry it pushes, which is the current state, so the top entry matches the state |
| Findings.CommitCorrected | src/store.ts:250-277 | the corrected commit succeeds exactly when the original does and differs from it only in the history; inside a group it is the original; outside one its entry is the post-mutation state |
| Findings.SetupSynced | src/store.ts:68-73 | after setup the top entry is the current state |
| Findings.CorrectedUndoRedo | src/store.ts:208-234 | with the corrected commit, undo restores the pre-commit state and redo the post-commit state |
| Findings.CorrectedRedoKeepsWrite | src/store.ts:208-234 | on the finding's input, the corrected commit makes redo bring the written value back |
| Findings.EmptyGroupStaysOpen | src/store.ts:100-114 | as written, a group on an object or array with no arrays inside, closed with no change, throws a TypeError and keeps its checkpoint; the next commit, and every sequence of commits an action makes, leaves the history as it was |
| Findings.CloseGroupCorrected | src/store.ts:116-122 | the corrected group close differs from the original only in the entry pushed, which is the current state |
| Findings.DidUpdateCorrected | src/store.ts:91-123 | the corrected `did_update` throws only when an open group's diff cannot be computed; otherwise it closes an open group with one entry that matches the state; it completes where the original does, with the same store apart from the history; it differs in outcome only on an open group whose diff is `false` |
| Findings.CorrectedCloseUndoRedo | src/store.ts:208-234 | after a corrected group close, `undo` reloads the entry beneath the group's and `redo` the state the group left |
| Findings.CorrectedGroupUndoRedo | src/store.ts:83-123 | with both corrections, a commit made inside an update group is undone back to the state before the group and redone to the state the group left |
| Findings.EmptyGroupClosesCorrected | src/store.ts:100-122 | with the correction the same empty group closes, clearing the checkpoint and adding one entry |

## Left out

- The proxies themselves are not modelled:
  - The get trap's `__store_path__` and `set_property` properties (src/store.ts:148-162) and the read-only `state` alias. Reads are `Store.GetValueByPath`, and writes are `Store.Write` at an explicit path.
  - Stale view paths. In the model a write goes through the container its path reaches now. In the source a view keeps the path it was created with (src/store.ts:129, 139), and `update_state` does not re-wrap a node that already has `__store_path__` (src/store.ts:299). So after array elements shift, an old view records its batch entries and fires its events under its old index. The model does not express this.
- Container identity is not modelled. The state tree is a value. In the source, `state.b = state.a` makes two keys share one container, so a later write through one shows under both. In the model the assignment copies the value, and the two keys then change independently.
- Store.Commit: does not model the `update_state` walk (src/store.ts:291-309). The walk runs after every commit, and also in `setup_state`, `undo` and `redo` (src/store.ts:75, 217, 231). It writes a fresh view over every container that has none. Only the write at the outermost new container, whose parent is already a view, goes through the gate; a nested new container is wrapped through its raw parent (see the next line). The model therefore omits the extra batch records (a copy of the parent) and the extra change events. The walk cannot change the tree's value. For a mutation that adds new containers, the real history entry can differ from the modelled one for that container's key. After a thrown commit has left the mutating flag raised, the walks in `setup_state`, `undo` and `redo` also record batch entries and announce changes. The model's `Store.SetupState`, `Store.Undo` and `Store.Redo` do neither.
- Writes through a raw, not yet wrapped container bypass the gate in the source, including the `update_state` walk's wrapping of nested new containers (see the Store.Commit line above). The model routes every assignment through the gate.
- `build_tree` (src/store.ts:102-114) is modelled only by its throw on a `false` diff. Its writes into the diff object, which are cyclic and include the key "undefined" for the root path, are never read by the store.
- Store.SetupState: `load` on an existing tree is modelled as replacing the tree. A state's own `load` may copy only some keys and keep the rest.
- Store.Undo / Store.Redo / Store.New: every state is assumed to have a `load` method. A state without one, including the constructor's default `{}` (src/store.ts:51), behaves differently in the source. There `undo` pops the history, moves the entry into the future and raises the silent flag (src/store.ts:209-215), then throws a TypeError calling the missing `load` (src/store.ts:216). The flag stays raised. `redo` fails the same way (src/store.ts:228-230), and so does a second `setup_state` (src/store.ts:64). In the model, `undo` and `redo` succeed on such a store.
- Utils.DeepCopy is the identity. The JSON round trip's quirks are not modelled: functions and undefined fields dropped, undefined array elements turned into null, class instances turned into plain objects.
- Inherited and prototype properties are not modelled: `key in o` seeing inherited names, and the mutation and action tables finding `toString`.
- Utils.DiffValues: `key in o2` also sees an array's `length`. The model's own entries omit it, so an object key "length" compared against an array is not modelled.
- Arrays:
  - Named (non-index) keys on an array are dropped.
  - Tree.AssignReadsBack / StoreLaws.WriteReadsBack: stated only for an object view or an index key on an array. In the source, `arr.foo = 1` on an array view reads back as 1. In the model that write leaves the array unchanged, so the key reads undefined.
  - Tree.PutField: a write to `length` resizes the array only for a non-negative integer. The source throws a RangeError for a negative or fractional length, and for a length that converts to NaN, such as `undefined` or "abc". It coerces a numeric string, a boolean or `null` (as 0) to a length. The model leaves the array unchanged in all of these cases.
  - Holes from writing past the end read as undefined elements.
  - The limit of 2^32 - 2 on indices is not modelled.
- Numbers are integers. Floating point, NaN and -0 are left out.
- Strings are sequences of Unicode scalar values. In the source, a string's indices and `length` count UTF-16 code units (Tree.GetField and Json.OwnEntries on strings), so a character outside the Basic Multilingual Plane counts once in the model and twice in the source.
- `make_guid` and `objType` are not modelled. Subscription ids are supplied by the caller, and the classification is by the value's tag.
- `debug`, `log` and `warn` are not modelled. A warning is a no-op.
- Callback, mutation and action bodies are opaque. A mutation is its sequence of assignments or the built-in `set_property`. An action is the commits it makes.
- Not modelled:
  - return values of mutations and actions;
  - nested dispatches;
  - re-entrant commits from inside a mutation;
  - exceptions thrown by an observer's callback or check.
- A `set_property` payload always carries both `path` and `value_object`. A payload missing either throws in the source, and the model does not express it.
- Paths.ObserverMatchesBelow: stated for a non-empty changed path only. An empty changed path matches every observer, whereas its extensions need not match.
- Fire's variadic arguments are modelled as one argument value, the changed path.

## Findings

| source | as written | input that shows it | evidently intended | confidence | as-written member | corrected member |
|---|---|---|---|---|---|---|
| src/store.ts:267-277 | the history entry is the current state overlaid with each batch record, and a record is the copy of the written container taken before the write (src/store.ts:133-136); a commit overwriting a root key pushes the state from before the commit, and so does the close of an update group (src/store.ts:121) | state `{count: 0, load(json) { this.count = json.count; }}`; commit `set_property` with path `[]` and `{count: 1}`; `undo`; `redo` leaves `count` at 0 | the entry is the snapshot the mutation or group leads to (src/lib/common.ts:12, src/store.ts:209), so `redo` restores `count` 1, whether the write was committed alone or inside a group | not executed | Findings.RedoReloadsOverwrittenValue | Findings.CommitHistoryBatchCorrected |
| src/store.ts:100-114 | with nothing changed since `will_update`, `deep_diff` returns `false` and `build_tree` assigns a property of `false`, which throws in strict mode before the checkpoint is cleared; every later commit then skips `commit_history_batch` | state `{todos: {a: 1}}`; `will_update(['todos'])`; `did_update(['todos'])` throws; a later commit adds no history entry | an empty group closes like any other, clearing the checkpoint and pushing one entry | not executed | Findings.EmptyGroupStaysOpen | Findings.DidUpdateCorrected |

The first finding shows up for values without containers. When a mutation introduces new
containers, the `update_state` walk writes their views through the gate during the commit.
Those writes add post-write copies of the parent to the batch, and they mask the stale
record for that key. This is consistent with the repository's undo/redo test on clearing a
list (test/main.ts:123-131). A write to a nested object has a further effect: the
container's own keys are copied onto the root of the entry.

=== FILE: event_manager.dfy ===
/**
 The event bus (src/lib/EventManager.ts): per event name, an insertion-ordered table of
 subscriptions keyed by id. A subscription's optional check is a value of type `C` that the
 caller of `Fire` interprets with `accepts`; callbacks are opaque tokens, and `Fire` returns
 the ids of the subscriptions it invokes, in invocation order. Ids are supplied by the
 caller, standing in for freshly generated guids.
 */
module EventManager {
  import opened Wrappers

  type Guid = string

  /** An opaque reference to a callback function. */
  type Callback = nat

  datatype Handle<C> = Handle(id: Guid, check: Option<C>, callback: Callback)

  /** `queue`: event name to its subscription table, in insertion order. */
  datatype Bus<C> = Bus(queue: map<string, seq<Handle<C>>>)

  function Ids<C>(t: seq<Handle<C>>): (r: seq<Guid>)
    ensures |r| == |t| && forall i :: 0 <= i < |t| ==> r[i] == t[i].id
  {
    seq(|t|, i requires 0 <= i < |t| => t[i].id)
  }

  /** A `Map` holds each key once. */
  predicate UniqueIds<C>(t: seq<Handle<C>>) {
    forall i, j :: 0 <= i < j < |t| ==> t[i].id != t[j].id
  }

  predicate WellFormed<C>(b: Bus<C>) {
    forall e :: e in b.queue ==> UniqueIds(b.queue[e])
  }

  /** The table of event `e`, empty when the event has never been subscribed to. */
  function Table<C>(b: Bus<C>, e: string): seq<Handle<C>> {
    if e in b.queue then b.queue[e] else []
  }

  function Empty<C>(): (b: Bus<C>)
    ensures WellFormed(b) && forall e :: Table(b, e) == []
  {
    Bus(map[])
  }

  /** `Map.set(h.id, h)`: a handle with the same id is replaced where it stands, otherwise `h` goes last. */
  function SetHandle<C>(t: seq<Handle<C>>, h: Handle<C>): seq<Handle<C>> {
    if t == [] then [h]
    else if t[0].id == h.id then [h] + t[1..]
    else [t[0]] + SetHandle(t[1..], h)
  }

  /** `Map.delete(g)`: drops the handle with id `g`, keeping the others in order. */
  function DeleteHandle<C>(t: seq<Handle<C>>, g: Guid): seq<Handle<C>> {
    if t == [] then []
    else if t[0].id == g then DeleteHandle(t[1..], g)
    else [t[0]] + DeleteHandle(t[1..], g)
  }

  /** Setting a fresh id appends. */
  lemma {:induction false} SetHandleFresh<C>(t: seq<Handle<C>>, h: Handle<C>)
    ensures h.id !in Ids(t) ==> SetHandle(t, h) == t + [h]
  {
    if h.id !in Ids(t) && t != [] {
      assert Ids(t[1..]) == Ids(t)[1..];
      SetHandleFresh(t[1..], h);
      assert t == [t[0]] + t[1..];
    }
  }

  /** Setting an id the table holds replaces that handle in place. */
  lemma {:induction false} SetHandleExisting<C>(t: seq<Handle<C>>, h: Handle<C>, i: nat)
    requires UniqueIds(t) && i < |t| && t[i].id == h.id
    ensures SetHandle(t, h) == t[i := h]
  {
    if i > 0 {
      SetHandleExisting(t[1..], h, i - 1);
    }
  }

  /** Setting keeps ids unique and makes the set id present. */
  lemma SetHandleKeepsUnique<C>(t: seq<Handle<C>>, h: Handle<C>)
    ensures UniqueIds(t) ==> UniqueIds(SetHandle(t, h)) && h.id in Ids(SetHandle(t, h))
  {
    if !UniqueIds(t) {
    } else if h.id in Ids(t) {
      var i :| 0 <= i < |t| && Ids(t)[i] == h.id;
      SetHandleExisting(t, h, i);
      assert Ids(SetHandle(t, h))[i] == h.id;
    } else {
      SetHandleFresh(t, h);
      assert Ids(SetHandle(t, h))[|t|] == h.id;
    }
  }

  /** Deleting an absent id changes nothing. */
  lemma {:induction false} DeleteHandleAbsent<C>(t: seq<Handle<C>>, g: Guid)
    requires g !in Ids(t)
    ensures DeleteHandle(t, g) == t
  {
    if t != [] {
      assert Ids(t[1..]) == Ids(t)[1..];
      DeleteHandleAbsent(t[1..], g);
      assert t == [t[0]] + t[1..];
    }
  }

  /** No handle with the deleted id survives. */
  lemma {:induction false} DeleteHandleRemoves<C>(t: seq<Handle<C>>, g: Guid)
    ensures g !in Ids(DeleteHandle(t, g))
  {
    if t != [] {
      DeleteHandleRemoves(t[1..], g);
      var rest := DeleteHandle(t[1..], g);
      if t[0].id != g {
        assert Ids([t[0]] + rest) == [t[0].id] + Ids(rest);
      }
    }
  }

  /** Deleting an id the table holds removes exactly that handle. */
  lemma {:induction false} DeleteHandleAt<C>(t: seq<Handle<C>>, g: Guid, i: nat)
    requires UniqueIds(t) && i < |t| && t[i].id == g
    ensures DeleteHandle(t, g) == t[..i] + t[i + 1..]
  {
    if i == 0 {
      assert forall j :: 0 <= j < |t[1..]| ==> Ids(t[1..])[j] == t[j + 1].id;
      DeleteHandleAbsent(t[1..], g);
    } else {
      DeleteHandleAt(t[1..], g, i - 1);
      assert t[..i] == [t[0]] + t[1..][..i - 1];
      assert t[i + 1..] == t[1..][i..];
    }
  }

  /** `on(e, callback, check_func)` with `guid` as the generated id. */
  function On<C>(b: Bus<C>, e: string, callback: Callback, check: Option<C>, guid: Guid): (r: Bus<C>)
    ensures e in r.queue
    ensures guid !in Ids(Table(b, e)) ==> r.queue[e] == Table(b, e) + [Handle(guid, check, callback)]
    ensures forall e' :: e' != e ==> Table(r, e') == Table(b, e') && (e' in r.queue <==> e' in b.queue)
    ensures WellFormed(b) ==> WellFormed(r) && guid in Ids(r.queue[e])
  {
    var h := Handle(guid, check, callback);
    SetHandleFresh(Table(b, e), h);
    SetHandleKeepsUnique(Table(b, e), h);
    Bus(b.queue[e := SetHandle(Table(b, e), h)])
  }

  /** Deleting from a table with unique ids leaves them unique. */
  lemma DeleteHandleKeepsUnique<C>(t: seq<Handle<C>>, g: Guid)
    ensures UniqueIds(t) ==> UniqueIds(DeleteHandle(t, g))
  {
    if UniqueIds(t) {
      if g in Ids(t) {
        var i :| 0 <= i < |t| && Ids(t)[i] == g;
        DeleteHandleAt(t, g, i);
        var t' := t[..i] + t[i + 1..];
        assert forall j :: 0 <= j < |t'| ==> t'[j] == (if j < i then t[j] else t[j + 1]);
      } else {
        DeleteHandleAbsent(t, g);
      }
    }
  }

  /** `off(e, guid)`: an unknown event or id only warns. */
  function Off<C>(b: Bus<C>, e: string, guid: Guid): (r: Bus<C>)
    ensures e !in b.queue || guid !in Ids(b.queue[e]) ==> r == b
    ensures guid !in Ids(Table(r, e))
    ensures forall e' :: e' != e ==> Table(r, e') == Table(b, e')
    ensures r.queue.Keys == b.queue.Keys
    ensures WellFormed(b) ==> WellFormed(r)
  {
    if e !in b.queue then b
    else if guid !in Ids(b.queue[e]) then b
    else
      DeleteHandleRemoves(b.queue[e], guid);
      DeleteHandleKeepsUnique(b.queue[e], guid);
      Bus(b.queue[e := DeleteHandle(b.queue[e], guid)])
  }

  /** `off(e, guid)` removes exactly the subscription `guid` and keeps the others in order. */
  lemma OffRemovesExactly<C>(b: Bus<C>, e: string, guid: Guid, i: nat)
    requires WellFormed(b) && i < |Table(b, e)| && Table(b, e)[i].id == guid
    ensures Table(Off(b, e, guid), e) == Table(b, e)[..i] + Table(b, e)[i + 1..]
  {
    assert Ids(b.queue[e])[i] == guid;
    DeleteHandleAt(b.queue[e], guid, i);
  }

  /** The handle's check is absent or holds of the fired arguments. */
  predicate Accepts<C, A>(h: Handle<C>, args: A, accepts: (C, A) -> bool) {
    h.check.None? || accepts(h.check.value, args)
  }

  /** `forEach` over a table: the ids of the handles whose callback runs, in table order. */
  function Invoked<C, A>(t: seq<Handle<C>>, args: A, accepts: (C, A) -> bool): (r: seq<Guid>)
    ensures |r| <= |t|
    ensures forall g :: g in r <==> exists i :: 0 <= i < |t| && t[i].id == g && Accepts(t[i], args, accepts)
  {
    if t == [] then []
    else
      var rest := Invoked(t[1..], args, accepts);
      assert forall i :: 1 <= i < |t| ==> t[i] == t[1..][i - 1];
      if Accepts(t[0], args, accepts) then [t[0].id] + rest else rest
  }

  /** `fire(e, ...args)`. */
  function Fire<C, A>(b: Bus<C>, e: string, args: A, accepts: (C, A) -> bool): (r: seq<Guid>)
    ensures e !in b.queue ==> r == []
    ensures forall g :: g in r <==> exists i :: 0 <= i < |Table(b, e)| && Table(b, e)[i].id == g && Accepts(Table(b, e)[i], args, accepts)
  {
    if e !in b.queue then [] else assert Table(b, e) == b.queue[e]; Invoked(b.queue[e], args, accepts)
  }

  /** Invocation follows table order: the handles of a prefix run before those after it. */
  lemma {:induction false} InvokedAppend<C, A>(t1: seq<Handle<C>>, t2: seq<Handle<C>>, args: A, accepts: (C, A) -> bool)
    ensures Invoked(t1 + t2, args, accepts) == Invoked(t1, args, accepts) + Invoked(t2, args, accepts)
    decreases |t1|
  {
    if t1 == [] {
      assert t1 + t2 == t2;
    } else {
      assert (t1 + t2)[0] == t1[0] && (t1 + t2)[1..] == t1[1..] + t2;
      InvokedAppend(t1[1..], t2, args, accepts);
    }
  }

  /** A fresh subscription runs after every existing one, and only if its check accepts. */
  lemma FireAfterOn<C, A>(b: Bus<C>, e: string, callback: Callback, check: Option<C>, guid: Guid, args: A, accepts: (C, A) -> bool)
    requires guid !in Ids(Table(b, e))
    ensures Fire(On(b, e, callback, check, guid), e, args, accepts)
         == Fire(b, e, args, accepts)
          + (if Accepts(Handle(guid, check, callback), args, accepts) then [guid] else [])
  {
    var h := Handle(guid, check, callback);
    InvokedAppend(Table(b, e), [h], args, accepts);
    assert [h][1..] == [];
  }

  /** Once unsubscribed, an id is never invoked by that event again. */
  lemma FireAfterOff<C, A>(b: Bus<C>, e: string, guid: Guid, args: A, accepts: (C, A) -> bool)
    ensures guid !in Fire(Off(b, e, guid), e, args, accepts)
  {
    var t := Table(Off(b, e, guid), e);
    forall i | 0 <= i < |t|
      ensures t[i].id != guid
    {
      assert Ids(t)[i] == t[i].id;
    }
  }

  /**
   Two subscribers without checks; removing the second leaves the first invoked alone,
   and removing the first as well leaves nothing to invoke.
   */
  lemma UnsubscribeScenario<C, A>(g1: Guid, g2: Guid, e: string, args: A, accepts: (C, A) -> bool)
    requires g1 != g2
    ensures Fire(Off(On(On(Empty<C>(), e, 1, None, g1), e, 2, None, g2), e, g2), e, args, accepts) == [g1]
    ensures Fire(Off(Off(On(On(Empty<C>(), e, 1, None, g1), e, 2, None, g2), e, g2), e, g1), e, args, accepts) == []
  {
    var b0 := Empty<C>();
    var b1 := On(b0, e, 1, None, g1);
    assert Table(b1, e) == [Handle(g1, None, 1)];
    var b := On(b1, e, 2, None, g2);
    assert Table(b, e) == [Handle(g1, None, 1), Handle(g2, None, 2)];
    var b2 := Off(b, e, g2);
    OffRemovesExactly(b, e, g2, 1);
    assert Table(b2, e) == [Handle(g1, None, 1)];
    var b3 := Off(b2, e, g1);
    OffRemovesExactly(b2, e, g1, 0);
    assert Table(b3, e) == [];
  }
}

=== FILE: findings.dfy ===
/**
 Two places where the store, as written, departs from what its own comments say it
 does, each stated twice: a lemma about the code as written that exhibits the
 departure, and a corrected definition with the intended property proved about it.

 1. `commit_history_batch` (src/store.ts:267-277) overlays each batch record onto the
    root snapshot. A record is the copy of the written container taken BEFORE the
    write (src/store.ts:133-136). So a commit that overwrites a key of the root pushes
    an entry holding the old value, and `redo` after `undo` reloads the state from
    before the commit. The comments say otherwise: a history entry is the snapshot a
    mutation leads to (src/lib/common.ts:12), the top entry is "the mutation that
    brings us to our current state" (src/store.ts:209), and `redo` "commits the last
    reverted action" (src/store.ts:222). Both callers are affected: `commit`
    (src/store.ts:261) and the close of an update group (src/store.ts:121).

 2. `did_update` (src/store.ts:100-114) hands the diff to `build_tree`, which assigns a
    property on it. When nothing in the group changed, the diff is `false`, and that
    assignment throws in strict mode. The checkpoint then stays set, so every later
    commit skips `commit_history_batch` and leaves no history at all.
 */
module Findings {
  import opened Wrappers
  import opened Json
  import opened Utils
  import opened Tree
  import opened Paths
  import opened Store
  import opened StoreLaws

  /** `set_property` on the root with the single field `k: v`. */
  function RootWrite(k: string, v: Json): Body {
    SetProperty([], [(k, v)])
  }

  // ---------------------------------------------------------------------------
  // 1. The history entry of a root-level write
  // ---------------------------------------------------------------------------

  /**
   As written: overwriting a key of the root with a primitive (so no new container
   needs a view) pushes an entry equal to the state BEFORE the commit, and `redo` after
   `undo` comes back to that state instead of the committed one.
   */
  lemma RedoReloadsOverwrittenValue(s: Store, k: string, v: Json)
    requires SET_PROPERTY in s.mutations && s.batch == [] && !Truthy(s.checkpoint) && |s.history| >= 1
    requires k in s.root && s.root[k] != v && !IsContainer(v)
    ensures Commit(s, SET_PROPERTY, RootWrite(k, v)).Done?
    ensures Commit(s, SET_PROPERTY, RootWrite(k, v)).store.root == s.root[k := v]
    ensures Commit(s, SET_PROPERTY, RootWrite(k, v)).store.history == s.history + [Entry(MUTATION, s.root)]
    ensures Undo(Commit(s, SET_PROPERTY, RootWrite(k, v)).store).Done?
    ensures Redo(Undo(Commit(s, SET_PROPERTY, RootWrite(k, v)).store).store).Done?
    ensures Redo(Undo(Commit(s, SET_PROPERTY, RootWrite(k, v)).store).store).store.root == s.root
    ensures Redo(Undo(Commit(s, SET_PROPERTY, RootWrite(k, v)).store).store).store.root[k] != v
  {
    var s1 := s.(mutating := true);
    var written := Write(s1, [], k, v).store;
    assert written.root == s.root[k := v];
    assert written.batch == [Entry(k, s.root)];
    assert [(k, v)][1..] == [];
    assert WriteFields(s1, [], [(k, v)]) == WriteFields(written, [], []);
    var after := RunBody(s1, RootWrite(k, v)).store;
    assert after == written;
    assert Overlay(after.root, after.batch) == Overlay(s.root[k := v] + s.root, []);
    assert s.root[k := v] + s.root == s.root;
    CommitEntry(s, SET_PROPERTY, RootWrite(k, v));
    var c := Commit(s, SET_PROPERTY, RootWrite(k, v)).store;
    UndoThenRedo(c);
  }

  /** The top history entry is the current state: what `undo` steps back from and `redo` steps forward to. */
  predicate Synced(s: Store) {
    |s.history| >= 1 && s.history[|s.history| - 1].stateData == s.root
  }

  /** `commit_history_batch` as intended: the entry it pushes is the state the batch led to. */
  function CommitHistoryBatchCorrected(s: Store): (r: Store)
    ensures r == CommitHistoryBatch(s).(history := r.history)
    ensures |r.history| == |s.history| + 1 && r.history[..|s.history|] == s.history
    ensures r.history[|s.history|].kind == MUTATION
    ensures Synced(r)
  {
    s.(history := s.history + [Entry(MUTATION, DeepCopy(Obj(s.root)).fields)], batch := [])
  }

  /** `commit` with the corrected `commit_history_batch`. */
  function CommitCorrected(s: Store, key: string, body: Body): (r: Outcome)
    ensures r.Done? <==> Commit(s, key, body).Done?
    ensures r.store == Commit(s, key, body).store.(history := r.store.history)
    ensures Truthy(s.checkpoint) ==> r == Commit(s, key, body)
    ensures r.Done? && !Truthy(s.checkpoint) ==> r.store.history == s.history + [Entry(MUTATION, r.store.root)]
    ensures r.Done? && !Truthy(s.checkpoint) ==> Synced(r.store)
  {
    var s1 := s.(mutating := true);
    if key !in s.mutations then Threw(s1, TypeError)
    else
      match RunBody(s1, body)
      case Threw(s2, e) => Threw(s2, e)
      case Done(s2) =>
        var s3 := if !Truthy(s2.checkpoint) then CommitHistoryBatchCorrected(s2) else s2;
        Done(s3.(mutating := false))
  }

  /** `setup_state` starts in step. */
  lemma SetupSynced(s: Store, state: map<string, Json>)
    ensures Synced(SetupState(s, state))
  {
  }

  /** With the corrected commit, `undo` restores the state from before the commit and `redo` the state after it. */
  lemma CorrectedUndoRedo(s: Store, key: string, body: Body)
    requires Synced(s) && !Truthy(s.checkpoint) && CommitCorrected(s, key, body).Done?
    ensures Undo(CommitCorrected(s, key, body).store).Done?
    ensures Undo(CommitCorrected(s, key, body).store).store.root == s.root
    ensures Synced(Undo(CommitCorrected(s, key, body).store).store)
    ensures Redo(Undo(CommitCorrected(s, key, body).store).store).Done?
    ensures Redo(Undo(CommitCorrected(s, key, body).store).store).store.root == CommitCorrected(s, key, body).store.root
    ensures Synced(Redo(Undo(CommitCorrected(s, key, body).store).store).store)
  {
    var c := CommitCorrected(s, key, body).store;
    assert c.history[..|c.history| - 1] == s.history;
    UndoThenRedo(c);
  }

  /** On the finding's own input, the corrected commit makes `redo` bring the written value back. */
  lemma CorrectedRedoKeepsWrite(s: Store, k: string, v: Json)
    requires SET_PROPERTY in s.mutations && s.batch == [] && !Truthy(s.checkpoint) && Synced(s)
    requires k in s.root && s.root[k] != v && !IsContainer(v)
    ensures Redo(Undo(CommitCorrected(s, SET_PROPERTY, RootWrite(k, v)).store).store).store.root == s.root[k := v]
  {
    RedoReloadsOverwrittenValue(s, k, v);
    CorrectedUndoRedo(s, SET_PROPERTY, RootWrite(k, v));
  }

  // ---------------------------------------------------------------------------
  // 2. An update group in which nothing changed
  // ---------------------------------------------------------------------------

  /**
   As written: opening a group on an object or array with no arrays inside and closing
   it with nothing changed throws a TypeError from `did_update`; the checkpoint stays
   set, and neither the next commit nor any sequence of commits pushes a history entry.
   */
  lemma EmptyGroupStaysOpen(s: Store, arg: PathArg)
    requires WillUpdate(s, arg).Done?
    requires IsContainer(WillUpdate(s, arg).store.checkpoint)
    requires ArrayFree(Obj(OwnEntries(WillUpdate(s, arg).store.checkpoint)))
    ensures DidUpdate(WillUpdate(s, arg).store, arg).Threw? && DidUpdate(WillUpdate(s, arg).store, arg).error == TypeError
    ensures Truthy(DidUpdate(WillUpdate(s, arg).store, arg).store.checkpoint)
    ensures forall key, body :: Commit(DidUpdate(WillUpdate(s, arg).store, arg).store, key, body).store.history == s.history
    ensures forall commits :: CommitAll(DidUpdate(WillUpdate(s, arg).store, arg).store, commits).store.history == s.history
  {
    var v := WillUpdate(s, arg).store.checkpoint;
    DiffFalseIffEqual(OwnEntries(v), OwnEntries(v));
    assert GroupDiff(WillUpdate(s, arg).store, arg) == Ok(Bool(false));
  }

  /** The end of a group with the corrected `commit_history_batch`. */
  function CloseGroupCorrected(s: Store): (r: Store)
    ensures r == CloseGroup(s).(history := r.history)
    ensures |r.history| == |s.history| + 1 && r.history[..|s.history|] == s.history
    ensures Synced(r)
  {
    CommitHistoryBatchCorrected(s.(batch := s.batch + [Entry(BATCHED_MUTATION, map[])])).(checkpoint := Null)
  }

  /**
   `did_update` as intended: an open group closes whatever the diff, unless computing
   the diff throws, and the entry it pushes is the state the group led to.
   */
  function DidUpdateCorrected(s: Store, arg: PathArg): (r: Outcome)
    ensures r.store.changes == s.changes + [EventPath(arg)]
    ensures r.store.root == s.root && r.store.future == s.future && r.store.bus == s.bus
    ensures r.Threw? ==> Truthy(s.checkpoint) && GroupDiff(s, arg).Err?
    ensures r.Done? && Truthy(s.checkpoint) ==>
      r.store.checkpoint == Null && r.store.batch == [] &&
      |r.store.history| == |s.history| + 1 && r.store.history[..|s.history|] == s.history && Synced(r.store)
    ensures r.Done? != DidUpdate(s, arg).Done? ==> Truthy(s.checkpoint) && GroupDiff(s, arg) == Ok(Bool(false))
    ensures DidUpdate(s, arg).Done? ==> r.Done? && r.store == DidUpdate(s, arg).store.(history := r.store.history)
  {
    var s1 := s.(changes := s.changes + [EventPath(arg)]);
    if !Truthy(s.checkpoint) then Done(s1)
    else
      match GroupDiff(s, arg)
      case Err(e) => Threw(s1, e)
      case Ok(_) => Done(CloseGroupCorrected(s1))
  }

  /** With the corrected `did_update`, the same empty group closes and leaves one history entry. */
  lemma EmptyGroupClosesCorrected(s: Store, arg: PathArg)
    requires WillUpdate(s, arg).Done?
    requires IsContainer(WillUpdate(s, arg).store.checkpoint)
    requires ArrayFree(Obj(OwnEntries(WillUpdate(s, arg).store.checkpoint)))
    ensures DidUpdateCorrected(WillUpdate(s, arg).store, arg).Done?
    ensures DidUpdateCorrected(WillUpdate(s, arg).store, arg).store.checkpoint == Null
    ensures |DidUpdateCorrected(WillUpdate(s, arg).store, arg).store.history| == |s.history| + 1
  {
    var v := WillUpdate(s, arg).store.checkpoint;
    DiffFalseIffEqual(OwnEntries(v), OwnEntries(v));
  }

  /** After a corrected group close, `undo` reloads the entry beneath the group's and `redo` the state the group left. */
  lemma CorrectedCloseUndoRedo(g: Store, arg: PathArg)
    requires Truthy(g.checkpoint) && |g.history| >= 1 && DidUpdateCorrected(g, arg).Done?
    ensures Undo(DidUpdateCorrected(g, arg).store).store.root == g.history[|g.history| - 1].stateData
    ensures Redo(Undo(DidUpdateCorrected(g, arg).store).store).store.root == g.root
  {
    var d := DidUpdateCorrected(g, arg).store;
    var n := |g.history|;
    assert d.history[n - 1] == g.history[n - 1];
    UndoThenRedo(d);
  }

  /**
   With both corrections, a commit made inside an update group survives `undo` and
   `redo`: `undo` goes back to the state before the group and `redo` to the state the
   group left.
   */
  lemma CorrectedGroupUndoRedo(s: Store, arg: PathArg, key: string, body: Body)
    requires Synced(s)
    requires WillUpdate(s, arg).Done? && Truthy(WillUpdate(s, arg).store.checkpoint)
    requires CommitCorrected(WillUpdate(s, arg).store, key, body).Done?
    requires DidUpdateCorrected(CommitCorrected(WillUpdate(s, arg).store, key, body).store, arg).Done?
    ensures Undo(DidUpdateCorrected(CommitCorrected(WillUpdate(s, arg).store, key, body).store, arg).store).store.root == s.root
    ensures Redo(Undo(DidUpdateCorrected(CommitCorrected(WillUpdate(s, arg).store, key, body).store, arg).store).store).store.root ==
      CommitCorrected(WillUpdate(s, arg).store, key, body).store.root
  {
    var c := CommitCorrected(WillUpdate(s, arg).store, key, body).store;
    assert c.history == s.history && Truthy(c.checkpoint);
    CorrectedCloseUndoRedo(c, arg);
  }
}

=== FILE: json.dfy ===
/**
 The value model of the state tree: JSON-like values with integer numbers, plus the
 `undefined` value JavaScript returns for a missing property. Arrays are addressed by
 their canonical decimal index keys, as JavaScript property keys are strings.
 */
module Json {
  import opened Wrappers

  datatype Json =
    | Undef
    | Null
    | Bool(b: bool)
    | Num(n: int)
    | Str(s: string)
    | Arr(items: seq<Json>)
    | Obj(fields: map<string, Json>)

  /** JavaScript truthiness (`!!x`): undefined, null, false, 0 and "" are falsy. */
  predicate Truthy(j: Json) {
    match j
    case Undef => false
    case Null => false
    case Bool(b) => b
    case Num(n) => n != 0
    case Str(s) => s != ""
    case _ => true
  }

  /** Every object and array is truthy; undefined, null, false, 0 and "" are the falsy values. */
  lemma TruthyClassifies(j: Json)
    ensures IsContainer(j) ==> Truthy(j)
    ensures !Truthy(j) <==> j == Undef || j == Null || j == Bool(false) || j == Num(0) || j == Str("")
  {
  }

  /** The values that own enumerable properties and receive an accessor view: objects and arrays. */
  predicate IsContainer(j: Json) {
    j.Obj? || j.Arr?
  }

  /** A tree whose containers are all plain objects: every leaf is a primitive. */
  predicate ArrayFree(j: Json)
    decreases j
  {
    match j
    case Arr(_) => false
    case Obj(m) => forall v :: v in m.Values ==> ArrayFree(v)
    case _ => true
  }

  // ---------------------------------------------------------------------------
  // Array index keys
  // ---------------------------------------------------------------------------

  predicate IsDigit(c: char) {
    '0' <= c <= '9'
  }

  predicate AllDigits(k: string) {
    forall j :: 0 <= j < |k| ==> IsDigit(k[j])
  }

  function DigitChar(d: nat): (c: char)
    requires d < 10
    ensures IsDigit(c)
  {
    ('0' as int + d) as char
  }

  function DigitValue(c: char): (d: nat)
    requires IsDigit(c)
    ensures d < 10 && DigitChar(d) == c
  {
    c as int - '0' as int
  }

  /** A canonical array index key: decimal digits with no leading zero, as `String(i)` prints. */
  predicate IsCanonicalIndex(k: string) {
    |k| >= 1 && AllDigits(k) && (k[0] != '0' || |k| == 1)
  }

  function DigitsValue(k: string): nat
    requires AllDigits(k)
  {
    if |k| == 0 then 0 else DigitsValue(k[..|k| - 1]) * 10 + DigitValue(k[|k| - 1])
  }

  /** The property key `String(i)` under which an array stores its element `i`. */
  function IndexKey(i: nat): (k: string)
    ensures IsCanonicalIndex(k)
    ensures k[0] == '0' <==> i == 0
  {
    if i < 10 then [DigitChar(i)] else IndexKey(i / 10) + [DigitChar(i % 10)]
  }

  /** The element index a property key denotes on an array, if it is an array index at all. */
  function ParseIndex(k: string): Option<nat> {
    if IsCanonicalIndex(k) then Some(DigitsValue(k)) else None
  }

  lemma {:induction false} DigitsValueOfIndexKey(i: nat)
    ensures DigitsValue(IndexKey(i)) == i
    decreases i
  {
    if i >= 10 {
      var prefix := IndexKey(i / 10);
      var k := IndexKey(i);
      assert k == prefix + [DigitChar(i % 10)];
      assert k[..|k| - 1] == prefix;
      DigitsValueOfIndexKey(i / 10);
    }
  }

  /** Printing an index and reading it back yields the index. */
  lemma IndexKeyRoundTrip(i: nat)
    ensures ParseIndex(IndexKey(i)) == Some(i)
  {
    DigitsValueOfIndexKey(i);
  }

  lemma {:induction false} LeadingDigitPositive(k: string)
    requires |k| >= 1 && AllDigits(k) && k[0] != '0'
    ensures DigitsValue(k) >= 1
    decreases |k|
  {
    if |k| > 1 {
      LeadingDigitPositive(k[..|k| - 1]);
    }
  }

  /** Every key that parses as an index is the canonical printing of that index. */
  lemma {:induction false} ParseIndexRoundTrip(k: string, i: nat)
    requires ParseIndex(k) == Some(i)
    ensures IndexKey(i) == k
    decreases |k|
  {
    if |k| == 1 {
      assert i == DigitValue(k[0]);
      assert IndexKey(i) == [DigitChar(i)];
    } else {
      var prefix := k[..|k| - 1];
      var d := DigitValue(k[|k| - 1]);
      LeadingDigitPositive(prefix);
      assert IsCanonicalIndex(prefix);
      ParseIndexRoundTrip(prefix, DigitsValue(prefix));
      assert i == DigitsValue(prefix) * 10 + d;
      assert i / 10 == DigitsValue(prefix) && i % 10 == d;
      assert k == prefix + [k[|k| - 1]];
    }
  }

  /** Two keys naming the same array slot are the same key. */
  lemma IndexKeysInjective(k1: string, k2: string, i: nat)
    requires ParseIndex(k1) == Some(i) && ParseIndex(k2) == Some(i)
    ensures k1 == k2
  {
    ParseIndexRoundTrip(k1, i);
    ParseIndexRoundTrip(k2, i);
  }

  // ---------------------------------------------------------------------------
  // Own enumerable properties
  // ---------------------------------------------------------------------------

  /** An array's elements keyed by their index keys. */
  function ArrayEntries<T>(s: seq<T>): (r: map<string, T>)
    ensures forall i :: 0 <= i < |s| ==> IndexKey(i) in r && r[IndexKey(i)] == s[i]
    ensures forall k :: k in r ==> ParseIndex(k).Some? && ParseIndex(k).value < |s|
  {
    assert forall i :: 0 <= i < |s| ==> ParseIndex(IndexKey(i)) == Some(i) by {
      forall i | 0 <= i < |s| {
        IndexKeyRoundTrip(i);
      }
    }
    map i | 0 <= i < |s| :: IndexKey(i) := s[i]
  }

  /**
   The own enumerable string-keyed properties of a value, which `for...in` and
   `Object.assign` visit: an object's fields, an array's or a string's index keys, and
   nothing for the other primitives.
   */
  function OwnEntries(j: Json): (r: map<string, Json>)
    ensures j.Obj? ==> r == j.fields
    ensures !IsContainer(j) && !j.Str? ==> r == map[]
  {
    match j
    case Obj(m) => m
    case Arr(s) => ArrayEntries(s)
    case Str(s) => ArrayEntries(seq(|s|, i requires 0 <= i < |s| => Str([s[i]])))
    case _ => map[]
  }
}

=== FILE: paths.dfy ===
/**
 Path arguments of the store: dotted strings split on '.', explicit segment arrays, and
 the observer predicate `add_observer` registers (src/store.ts:174-193), where an
 observed component `@each` matches any component of the changed path.
 */
module Paths {
  import opened Wrappers
  import opened Utils
  import opened Tree

  const EACH: string := "@each"

  /** `s.split('.')`: the empty string splits into one empty component. */
  function Split(s: string): (r: seq<string>)
    ensures |r| >= 1
    ensures forall i :: 0 <= i < |r| ==> '.' !in r[i]
  {
    if |s| == 0 then [""]
    else
      var rest := Split(s[1..]);
      if s[0] == '.' then [""] + rest
      else [[s[0]] + rest[0]] + rest[1..]
  }

  /** `p.join('.')`. */
  function Join(p: seq<string>): string {
    if |p| == 0 then ""
    else if |p| == 1 then p[0]
    else p[0] + "." + Join(p[1..])
  }

  /** Splitting then joining gives back the string. */
  lemma {:induction false} SplitJoin(s: string)
    ensures Join(Split(s)) == s
    decreases |s|
  {
    if |s| > 0 {
      var rest := Split(s[1..]);
      SplitJoin(s[1..]);
      if s[0] == '.' {
        assert Split(s) == [""] + rest;
        assert Join(Split(s)) == "" + "." + Join(rest);
      } else if |rest| == 1 {
        assert Join(Split(s)) == [s[0]] + rest[0];
      } else {
        assert Join(Split(s)) == [s[0]] + rest[0] + "." + Join(rest[1..]);
      }
      assert s == [s[0]] + s[1..];
    }
  }

  lemma {:induction false} SplitWord(a: string)
    requires '.' !in a
    ensures Split(a) == [a]
    decreases |a|
  {
    if |a| > 0 {
      SplitWord(a[1..]);
      assert a == [a[0]] + a[1..];
    }
  }

  lemma {:induction false} SplitCons(a: string, t: string)
    requires '.' !in a
    ensures Split(a + "." + t) == [a] + Split(t)
    decreases |a|
  {
    var s := a + "." + t;
    if |a| == 0 {
      assert s == "." + t && s[1..] == t;
    } else {
      assert s[1..] == a[1..] + "." + t;
      SplitCons(a[1..], t);
      assert a == [a[0]] + a[1..];
    }
  }

  /** Joining components free of '.' and splitting again gives back the components. */
  lemma {:induction false} JoinSplit(p: seq<string>)
    requires |p| >= 1 && forall i :: 0 <= i < |p| ==> '.' !in p[i]
    ensures Split(Join(p)) == p
    decreases |p|
  {
    if |p| == 1 {
      SplitWord(p[0]);
    } else {
      JoinSplit(p[1..]);
      SplitCons(p[0], Join(p[1..]));
      assert p == [p[0]] + p[1..];
    }
  }

  /** The `path` argument of `will_update` / `did_update`. */
  datatype PathArg = Absent | Dotted(text: string) | Segments(parts: Path)

  /**
   The path `get_value_by_path` walks: a non-empty string is split on '.'; the empty
   string and a missing argument reach `path.forEach` and throw.
   */
  function WalkPath(arg: PathArg): (r: Result<Path, Exception>)
    ensures r.Err? <==> arg.Absent? || arg == Dotted("")
    ensures arg.Segments? ==> r == Ok(arg.parts)
  {
    match arg
    case Absent => Err(TypeError)
    case Dotted(t) => if t == "" then Err(TypeError) else Ok(Split(t))
    case Segments(p) => Ok(p)
  }

  /** The path the change event carries, `path || []`; an empty string, like `[]`, has no components. */
  function EventPath(arg: PathArg): (r: Path)
    ensures arg.Absent? || arg == Dotted("") ==> r == []
    ensures arg.Dotted? && arg.text != "" ==> Join(r) == arg.text && forall i :: 0 <= i < |r| ==> '.' !in r[i]
    ensures WalkPath(arg).Ok? ==> r == WalkPath(arg).value
  {
    match arg
    case Absent => []
    case Dotted(t) => if t == "" then [] else SplitJoin(t); Split(t)
    case Segments(p) => p
  }

  /** The `path` argument of `add_observer`: one dotted path, or an array of dotted paths. */
  datatype ObserverArg = One(text: string) | Many(texts: seq<string>)

  /** `(isArray(path) ? path : [path]).map(str => str.split('.'))`. */
  function CheckPaths(arg: ObserverArg): (r: seq<Path>)
    ensures arg.One? ==> r == [Split(arg.text)]
    ensures arg.Many? ==> |r| == |arg.texts| && forall j :: 0 <= j < |r| ==> r[j] == Split(arg.texts[j])
  {
    match arg
    case One(t) => [Split(t)]
    case Many(ts) => seq(|ts|, j requires 0 <= j < |ts| => Split(ts[j]))
  }

  /** An observed path covers a changed path when each observed component is `@each` or the changed component at that index. */
  predicate Covers(check: Path, changed: Path) {
    forall i :: 0 <= i < |check| ==> check[i] == EACH || (i < |changed| && check[i] == changed[i])
  }

  /** The inner `find`: the first observed component, from `from` on, that neither is `@each` nor equals the changed one. */
  function FindDiff(check: Path, changed: Path, from: nat): (r: Option<string>)
    decreases |check| - from
    ensures r.None? <==> forall i :: from <= i < |check| ==> check[i] == EACH || (i < |changed| && check[i] == changed[i])
  {
    if from >= |check| then None
    else if check[from] != EACH && (from >= |changed| || check[from] != changed[from]) then Some(check[from])
    else FindDiff(check, changed, from + 1)
  }

  /** The outer `find`: the first observed path, from `from` on, without a differing component. */
  function FindMatch(checks: seq<Path>, changed: Path, from: nat): (r: Option<Path>)
    decreases |checks| - from
    ensures r.None? <==> forall j :: from <= j < |checks| ==> !Covers(checks[j], changed)
  {
    if from >= |checks| then None
    else if FindDiff(checks[from], changed, 0).None? then Some(checks[from])
    else FindMatch(checks, changed, from + 1)
  }

  /** The check function `add_observer` subscribes with. */
  function ObserverCheck(checks: seq<Path>, changed: Path): (r: bool)
    ensures r <==> |changed| == 0 || exists j :: 0 <= j < |checks| && Covers(checks[j], changed)
  {
    if |changed| < 1 then true else FindMatch(checks, changed, 0).Some?
  }

  /** A match on a non-empty changed path is a match on every path below it. */
  lemma ObserverMatchesBelow(checks: seq<Path>, p: Path, q: Path)
    requires |p| > 0 && ObserverCheck(checks, p)
    ensures ObserverCheck(checks, p + q)
  {
    var j :| 0 <= j < |checks| && Covers(checks[j], p);
    assert Covers(checks[j], p + q);
  }

  /** An array argument observes the union of its elements, each read as one dotted path. */
  lemma ObserverArrayIsDisjunction(texts: seq<string>, changed: Path)
    ensures ObserverCheck(CheckPaths(Many(texts)), changed)
        <==> |changed| == 0 || exists j :: 0 <= j < |texts| && ObserverCheck(CheckPaths(One(texts[j])), changed)
  {
    var checks := CheckPaths(Many(texts));
    if |changed| > 0 && ObserverCheck(checks, changed) {
      var j :| 0 <= j < |checks| && Covers(checks[j], changed);
      assert ObserverCheck(CheckPaths(One(texts[j])), changed);
    }
    if |changed| > 0 && exists j :: 0 <= j < |texts| && ObserverCheck(CheckPaths(One(texts[j])), changed) {
      var j :| 0 <= j < |texts| && ObserverCheck(CheckPaths(One(texts[j])), changed);
      assert Covers(checks[j], changed);
    }
  }

  /**
   Observing the array `[a, b]` sees a change at `[b]`, while observing the one dotted
   path `a.b` does not: an array lists alternatives, not components.
   */
  lemma ObserverArrayIsNotOnePath(a: string, b: string)
    requires '.' !in a && '.' !in b && a != b && a != EACH
    ensures ObserverCheck(CheckPaths(Many([a, b])), [b])
    ensures !ObserverCheck(CheckPaths(One(a + "." + b)), [b])
  {
    var changed: Path := [b];
    SplitWord(b);
    var several := CheckPaths(Many([a, b]));
    assert Covers(several[1], changed);
    SplitCons(a, b);
    assert Split(a + "." + b) == [a] + [b] == [a, b];
    var single := CheckPaths(One(a + "." + b));
    assert single == [[a, b]];
    assert !Covers(single[0], changed) by {
      assert single[0][0] != EACH && single[0][0] != changed[0];
    }
  }

  /**
   A `parent` observer and a `parent.@each` observer see any change below `parent`, an
   observer of an unrelated top-level key sees none of them, and every observer sees a
   global change (an empty path).
   */
  lemma ParentObservers(parent: string, other: string, k: string, rest: Path)
    requires '.' !in parent && '.' !in other && parent != other && other != EACH
    ensures ObserverCheck(CheckPaths(One(parent)), [parent] + rest)
    ensures ObserverCheck(CheckPaths(One(parent + "." + EACH)), [parent, k] + rest)
    ensures !ObserverCheck(CheckPaths(One(other)), [parent] + rest)
    ensures ObserverCheck(CheckPaths(One(other)), [])
  {
    var changed: Path := [parent] + rest;
    var changedK: Path := [parent, k] + rest;
    SplitWord(parent);
    SplitWord(other);
    SplitWord(EACH);
    SplitCons(parent, EACH);
    var ps := CheckPaths(One(parent));
    assert Covers(ps[0], changed);
    assert Split(parent + "." + EACH) == [parent] + [EACH] == [parent, EACH];
    var each := CheckPaths(One(parent + "." + EACH));
    assert each == [[parent, EACH]];
    assert Covers(each[0], changedK) by {
      assert changedK[0] == parent;
    }
    var os := CheckPaths(One(other));
    assert os == [[other]];
    assert !Covers(os[0], changed) by {
      assert os[0][0] != EACH && os[0][0] != changed[0];
    }
  }
}

=== FILE: store.dfy ===
/**
 The store (src/store.ts) with its accessor proxies replaced by explicit reads and
 writes: the write gate behind every assignment, mutations and actions, the history
 and future stacks, update groups bracketed by a checkpoint, and observers listening
 on the change event.
 */
module Store {
  import opened Wrappers
  import opened Json
  import opened Utils
  import opened Tree
  import opened Paths
  import opened EventManager

  /**
   A history entry or batch record, `{type, stateData}` (src/lib/common.ts:13-16). The
   data is kept as the snapshot's own entries, which is all `Object.assign` and `load`
   ever read of it.
   */
  datatype Entry = Entry(kind: string, stateData: map<string, Json>)

  datatype Store = Store(
    root: map<string, Json>,     // the canonical state tree
    mutations: set<string>,      // keys of the mutation table
    actions: set<string>,        // keys of the action table
    mutating: bool,              // `is_mutating`
    silent: bool,                // `is_silently_modifying`
    bus: Bus<seq<Path>>,         // the event manager; an observer's check is its observed paths
    history: seq<Entry>,
    future: seq<Entry>,
    batch: seq<Entry>,           // `currentHistoryBatch`
    checkpoint: Json,            // `history_checkpoint`; undefined until the first `will_update`
    changes: seq<Path>)          // the paths STATE_CHANGED has been fired with, oldest first

  /** How an operation ends: normally, or by a throw that leaves the store as it stood then. */
  datatype Outcome = Done(store: Store) | Threw(store: Store, error: Exception)

  const INIT_STATE: string := "INIT_STATE"
  const MUTATION: string := "Mutation"
  const BATCHED_MUTATION: string := "BatchedMutation"
  const SET_PROPERTY: string := "set_property"
  const NO_HISTORY: string := "Calling undo with no history"
  const NO_FUTURE: string := "Calling redo with no future"

  /** `get_value_by_path`: `current = current[part]` from the canonical tree along `path`. */
  function GetValueByPath(s: Store, path: Path): (r: Result<Json, Exception>)
    ensures path == [] ==> r == Ok(Obj(s.root))
    ensures r.Err? ==> r.error == TypeError
    ensures r.Err? <==> exists i :: 0 <= i < |path| && Nullish(GetPath(Obj(s.root), path[..i]))
  {
    GetPathFailsAtNullish(Obj(s.root), path);
    GetPath(Obj(s.root), path)
  }

  // ---------------------------------------------------------------------------
  // The write gate
  // ---------------------------------------------------------------------------

  /**
   `view[key] = value` through the accessor view of the container at `path`. Reaching the
   view reads along `path`; assigning a property of a primitive throws in strict mode.
   The gate (`proxy_set`) then records, applies and announces the write while mutating,
   applies it alone while silently modifying, and otherwise drops it with a warning
   while still reporting success.
   */
  function Write(s: Store, path: Path, key: string, value: Json): (r: Outcome)
    ensures r.Done? <==> ReachesContainer(Obj(s.root), path)
    ensures r.Threw? ==> r.store == s && r.error == TypeError
    ensures r.store == s.(root := r.store.root, batch := r.store.batch, changes := r.store.changes)
    ensures s.batch <= r.store.batch && s.changes <= r.store.changes
    ensures !s.mutating && !s.silent ==> r.store == s
    ensures s.mutating && r.Done? ==>
      r.store.batch == s.batch + [Entry(key, OwnEntries(GetValueByPath(s, path).value))] &&
      r.store.changes == s.changes + [path + [key]]
    ensures !s.mutating ==> r.store.batch == s.batch && r.store.changes == s.changes
  {
    match GetPath(Obj(s.root), path)
    case Err(e) => Threw(s, e)
    case Ok(target) =>
      if !IsContainer(target) then Threw(s, TypeError)
      else if s.mutating then
        Done(s.(batch := s.batch + [Entry(key, OwnEntries(DeepCopy(target)))],
                root := Assign(Obj(s.root), path, key, value).fields,
                changes := s.changes + [path + [key]]))
      else if s.silent then
        Done(s.(root := Assign(Obj(s.root), path, key, value).fields))
      else
        Done(s)
  }

  // ---------------------------------------------------------------------------
  // Mutations and actions
  // ---------------------------------------------------------------------------

  /** One assignment a mutation makes through the accessor views: `view(path)[key] = value`. */
  datatype Assignment = Assignment(path: Path, key: string, value: Json)

  /**
   What a mutation does to the state when it runs: the built-in `set_property` with its
   payload `{path, value_object}` (the object's entries in key order), or a sequence of
   assignments through the accessor views.
   */
  datatype Body =
    | SetProperty(path: Path, fields: seq<(string, Json)>)
    | Assignments(writes: seq<Assignment>)

  /** The assignments in order, stopping at the first that throws. */
  function WriteAll(s: Store, writes: seq<Assignment>): (r: Outcome)
    decreases |writes|
    ensures r.store == s.(root := r.store.root, batch := r.store.batch, changes := r.store.changes)
    ensures s.batch <= r.store.batch && s.changes <= r.store.changes
    ensures !s.mutating ==> r.store.batch == s.batch && r.store.changes == s.changes
    ensures s.mutating && r.Done? ==> |r.store.batch| == |s.batch| + |writes| && |r.store.changes| == |s.changes| + |writes|
    ensures r.Threw? ==> r.error == TypeError
  {
    if writes == [] then Done(s)
    else
      match Write(s, writes[0].path, writes[0].key, writes[0].value)
      case Threw(s', e) => Threw(s', e)
      case Done(s') => WriteAll(s', writes[1..])
  }

  /** `Object.keys(value_object).forEach(key => current[key] = value_object[key])` on the view at `path`. */
  function WriteFields(s: Store, path: Path, fields: seq<(string, Json)>): (r: Outcome)
    decreases |fields|
    ensures r.store == s.(root := r.store.root, batch := r.store.batch, changes := r.store.changes)
    ensures s.batch <= r.store.batch && s.changes <= r.store.changes
    ensures !s.mutating ==> r.store.batch == s.batch && r.store.changes == s.changes
    ensures s.mutating && r.Done? ==> |r.store.batch| == |s.batch| + |fields| && |r.store.changes| == |s.changes| + |fields|
    ensures r.Threw? ==> r.error == TypeError
  {
    if fields == [] then Done(s)
    else
      match Write(s, path, fields[0].0, fields[0].1)
      case Threw(s', e) => Threw(s', e)
      case Done(s') => WriteFields(s', path, fields[1..])
  }

  /**
   The built-in `set_property` mutation: walk to `path` once, then assign every field
   there. A walk through undefined or null throws even when there is nothing to assign.
   */
  function SetPropertyBody(s: Store, path: Path, fields: seq<(string, Json)>): (r: Outcome)
    ensures GetValueByPath(s, path).Err? ==> r == Threw(s, TypeError)
    ensures fields == [] && GetValueByPath(s, path).Ok? ==> r == Done(s)
    ensures r.store == s.(root := r.store.root, batch := r.store.batch, changes := r.store.changes)
    ensures s.batch <= r.store.batch && s.changes <= r.store.changes
  {
    match GetValueByPath(s, path)
    case Err(e) => Threw(s, e)
    case Ok(_) => WriteFields(s, path, fields)
  }

  function RunBody(s: Store, body: Body): (r: Outcome)
    ensures r.store == s.(root := r.store.root, batch := r.store.batch, changes := r.store.changes)
    ensures s.batch <= r.store.batch && s.changes <= r.store.changes
  {
    match body
    case SetProperty(path, fields) => SetPropertyBody(s, path, fields)
    case Assignments(writes) => WriteAll(s, writes)
  }

  /**
   `Object.assign` of each record's data in turn onto `m`: later records win, and a key
   no record holds keeps its value in `m`.
   */
  function Overlay(m: map<string, Json>, records: seq<Entry>): (r: map<string, Json>)
    decreases |records|
    ensures r.Keys == m.Keys + set i, k | 0 <= i < |records| && k in records[i].stateData :: k
  {
    if records == [] then m
    else
      var r := Overlay(m + records[0].stateData, records[1..]);
      assert forall i :: 1 <= i < |records| ==> records[i] == records[1..][i - 1];
      r
  }

  /**
   `commit_history_batch`: the current state overlaid with every batch record becomes a
   new "Mutation" history entry, and the batch is emptied.
   */
  function CommitHistoryBatch(s: Store): (r: Store)
    ensures r == s.(history := r.history, batch := [])
    ensures |r.history| == |s.history| + 1 && r.history[..|s.history|] == s.history
    ensures r.history[|s.history|].kind == MUTATION
    ensures r.history[|s.history|].stateData.Keys == s.root.Keys + set i, k | 0 <= i < |s.batch| && k in s.batch[i].stateData :: k
  {
    var mutation := Overlay(DeepCopy(Obj(s.root)).fields, s.batch);
    s.(history := s.history + [Entry(MUTATION, mutation)], batch := [])
  }

  /**
   `commit(key)`: raise the mutating flag, run the mutation, and, unless an update group
   holds a checkpoint, fold the batch into history; then lower the flag. An unknown key
   calls `undefined` and throws, and any throw leaves the flag raised.
   */
  function Commit(s: Store, key: string, body: Body): (r: Outcome)
    ensures key !in s.mutations ==> r == Threw(s.(mutating := true), TypeError)
    ensures r.Done? <==> key in s.mutations && RunBody(s.(mutating := true), body).Done?
    ensures r.Done? ==> !r.store.mutating
    ensures r.Threw? ==> r.store.mutating && r.store.history == s.history
    ensures r.store.future == s.future && r.store.checkpoint == s.checkpoint && r.store.bus == s.bus
    ensures r.Done? && !Truthy(s.checkpoint) ==>
      |r.store.history| == |s.history| + 1 && r.store.history[..|s.history|] == s.history &&
      r.store.history[|s.history|].kind == MUTATION && r.store.batch == []
    ensures r.Done? && Truthy(s.checkpoint) ==> r.store.history == s.history && s.batch <= r.store.batch
  {
    var s1 := s.(mutating := true);
    if key !in s.mutations then Threw(s1, TypeError)
    else
      match RunBody(s1, body)
      case Threw(s2, e) => Threw(s2, e)
      case Done(s2) =>
        var s3 := if !Truthy(s2.checkpoint) then CommitHistoryBatch(s2) else s2;
        Done(s3.(mutating := false))
  }

  /** The commits an action makes, in order, stopping at the first that throws. */
  function CommitAll(s: Store, commits: seq<(string, Body)>): (r: Outcome)
    decreases |commits|
    ensures r.store.future == s.future && r.store.checkpoint == s.checkpoint && r.store.bus == s.bus
    ensures Truthy(s.checkpoint) ==> r.store.history == s.history
  {
    if commits == [] then Done(s)
    else
      match Commit(s, commits[0].0, commits[0].1)
      case Threw(s', e) => Threw(s', e)
      case Done(s') => CommitAll(s', commits[1..])
  }

  /**
   `dispatch(key)`: an unknown action key throws through `error`; a known one runs the
   action, whose effect on the store is the commits it makes.
   */
  function Dispatch(s: Store, key: string, commits: seq<(string, Body)>): (r: Outcome)
    ensures key !in s.actions ==> r.Threw? && r.store == s
    ensures key !in s.actions ==> r.error == Message("Action dispatched that does not exist: " + key)
    ensures key in s.actions ==> r == CommitAll(s, commits)
  {
    if key !in s.actions then
      var e := Error(Message("Action dispatched that does not exist: " + key));
      Threw(s, e.error)
    else CommitAll(s, commits)
  }

  // ---------------------------------------------------------------------------
  // Update groups
  // ---------------------------------------------------------------------------

  /**
   `will_update(path)`: remember a copy of the value at `path` as the checkpoint that
   opens an update group. A walk through undefined or null throws, and so does copying
   an undefined value, as `JSON.parse(undefined)` is not JSON text.
   */
  function WillUpdate(s: Store, arg: PathArg): (r: Outcome)
    ensures r.Threw? ==> r.store == s
    ensures WalkPath(arg).Err? ==> r == Threw(s, TypeError)
    ensures r.Done? <==> WalkPath(arg).Ok? && GetValueByPath(s, WalkPath(arg).value).Ok? &&
                         GetValueByPath(s, WalkPath(arg).value).value != Undef
    ensures r.Done? ==> r.store == s.(checkpoint := GetValueByPath(s, WalkPath(arg).value).value)
    ensures WalkPath(arg).Ok? && GetValueByPath(s, WalkPath(arg).value) == Ok(Undef) ==> r == Threw(s, SyntaxError)
  {
    match WalkPath(arg)
    case Err(e) => Threw(s, e)
    case Ok(path) =>
      match GetValueByPath(s, path)
      case Err(e) => Threw(s, e)
      case Ok(v) => if v == Undef then Threw(s, SyntaxError) else Done(s.(checkpoint := DeepCopy(v)))
  }

  /** The end of a group: push an empty "BatchedMutation" record, fold the batch into history, clear the checkpoint. */
  function CloseGroup(s: Store): (r: Store)
    ensures r == s.(history := r.history, batch := [], checkpoint := Null)
    ensures |r.history| == |s.history| + 1 && r.history[..|s.history|] == s.history
    ensures r.history[|s.history|].kind == MUTATION
  {
    CommitHistoryBatch(s.(batch := s.batch + [Entry(BATCHED_MUTATION, map[])])).(checkpoint := Null)
  }

  /** The diff `did_update` computes: the checkpoint against the value now at `path`. */
  function GroupDiff(s: Store, arg: PathArg): (r: Result<Json, Exception>)
    ensures WalkPath(arg).Err? ==> r == Err(TypeError)
    ensures WalkPath(arg).Ok? && GetValueByPath(s, WalkPath(arg).value).Ok? ==>
      r == DiffValues(s.checkpoint, GetValueByPath(s, WalkPath(arg).value).value)
    ensures r.Err? ==> r.error == TypeError
  {
    var path :- WalkPath(arg);
    var v :- GetValueByPath(s, path);
    DiffValues(s.checkpoint, v)
  }

  /**
   `did_update(path)`: announce the change at `path`; then, if a group is open, diff the
   checkpoint against the value now at `path` and close the group. The diff is handed
   to `build_tree`, which assigns a property on it; when nothing changed the diff is
   `false`, and that assignment throws in strict mode before the group closes.
   */
  function DidUpdate(s: Store, arg: PathArg): (r: Outcome)
    ensures r.store.changes == s.changes + [EventPath(arg)]
    ensures !Truthy(s.checkpoint) ==> r == Done(s.(changes := r.store.changes))
    ensures r.Threw? ==> r.store == s.(changes := r.store.changes) && r.error == TypeError
    ensures Truthy(s.checkpoint) ==> (r.Done? <==> GroupDiff(s, arg).Ok? && GroupDiff(s, arg).value != Bool(false))
    ensures r.Done? && Truthy(s.checkpoint) ==>
      |r.store.history| == |s.history| + 1 && r.store.history[..|s.history|] == s.history &&
      r.store.batch == [] && r.store.checkpoint == Null
    ensures r.store.future == s.future && r.store.root == s.root && r.store.bus == s.bus
  {
    var s1 := s.(changes := s.changes + [EventPath(arg)]);
    if !Truthy(s.checkpoint) then Done(s1)
    else
      match GroupDiff(s, arg)
      case Err(e) => Threw(s1, e)
      case Ok(diff) => if diff == Bool(false) then Threw(s1, TypeError) else Done(CloseGroup(s1))
  }

  // ---------------------------------------------------------------------------
  // Undo, redo and initialisation
  // ---------------------------------------------------------------------------

  /**
   `undo`: pop the entry that brought the store to its current state; throw if none is
   left beneath it, the pop having happened; otherwise push the popped entry onto the
   front of the future, load the new top entry and announce a root-level change.
   */
  function Undo(s: Store): (r: Outcome)
    ensures |s.history| < 2 ==> r == Threw(s.(history := if s.history == [] then [] else s.history[..|s.history| - 1]), Message(NO_HISTORY))
    ensures |s.history| >= 2 && !Truthy(s.checkpoint) ==>
      r.Done? && r.store.history == s.history[..|s.history| - 1] &&
      r.store.future == [s.history[|s.history| - 1]] + s.future &&
      r.store.root == s.history[|s.history| - 2].stateData
    ensures |s.history| >= 2 && !Truthy(s.checkpoint) ==>
      r.store == s.(history := r.store.history, future := r.store.future, root := r.store.root,
                    silent := false, changes := s.changes + [[]])
  {
    if |s.history| == 0 then Threw(s, Message(NO_HISTORY))
    else
      var last := s.history[|s.history| - 1];
      var rest := s.history[..|s.history| - 1];
      if |rest| == 0 then Threw(s.(history := rest), Message(NO_HISTORY))
      else
        var loaded := DeepCopy(Obj(rest[|rest| - 1].stateData)).fields;
        DidUpdate(s.(history := rest, future := [last] + s.future, root := loaded, silent := false), Segments([]))
  }

  /**
   `redo`: shift the earliest future entry, throwing if there is none; push it onto the
   history, load it and announce a root-level change.
   */
  function Redo(s: Store): (r: Outcome)
    ensures s.future == [] ==> r == Threw(s, Message(NO_FUTURE))
    ensures s.future != [] && !Truthy(s.checkpoint) ==>
      r.Done? && r.store.history == s.history + [s.future[0]] && r.store.future == s.future[1..] &&
      r.store.root == s.future[0].stateData
    ensures s.future != [] && !Truthy(s.checkpoint) ==>
      r.store == s.(history := r.store.history, future := r.store.future, root := r.store.root,
                    silent := false, changes := s.changes + [[]])
  {
    if s.future == [] then Threw(s, Message(NO_FUTURE))
    else
      var next := s.future[0];
      var loaded := DeepCopy(Obj(next.stateData)).fields;
      DidUpdate(s.(future := s.future[1..], history := s.history + [next], root := loaded, silent := false), Segments([]))
  }

  /**
   `setup_state`: make `state` the canonical tree (through `load` once a tree exists),
   restart the history at a single "INIT_STATE" entry with an empty future, and announce
   a root-level change.
   */
  function SetupState(s: Store, state: map<string, Json>): (r: Store)
    ensures r.root == state && r.history == [Entry(INIT_STATE, state)] && r.future == []
    ensures r.changes == s.changes + [[]]
    ensures r == s.(root := state, history := r.history, future := [], changes := r.changes)
  {
    var s1 := s.(root := state);
    s1.(history := [Entry(INIT_STATE, DeepCopy(Obj(s1.root)).fields)], future := [], changes := s1.changes + [[]])
  }

  /** `new Store({state, mutations, actions})`: `set_property` joins the mutations, and the state defaults to `{}`. */
  function New(state: Option<map<string, Json>>, mutations: set<string>, actions: set<string>): (r: Store)
    ensures r.root == (if state.Some? then state.value else map[])
    ensures r.history == [Entry(INIT_STATE, r.root)] && r.future == [] && r.batch == []
    ensures SET_PROPERTY in r.mutations && r.actions == actions
    ensures !r.mutating && !r.silent && !Truthy(r.checkpoint) && WellFormed(r.bus)
  {
    var initial := Store(map[], {SET_PROPERTY} + mutations, actions, false, false, EventManager.Empty(), [], [], [], Undef, []);
    SetupState(initial, if state.Some? then state.value else map[])
  }

  // ---------------------------------------------------------------------------
  // Observers
  // ---------------------------------------------------------------------------

  /** `add_observer(path, callback)`: subscribe to STATE_CHANGED with the observed paths as the check; `guid` is the fresh id. */
  function AddObserver(s: Store, arg: ObserverArg, callback: Callback, guid: Guid): (r: Store)
    ensures r == s.(bus := r.bus)
    ensures guid !in Ids(Table(s.bus, STATE_CHANGED)) ==>
      Table(r.bus, STATE_CHANGED) == Table(s.bus, STATE_CHANGED) + [Handle(guid, Some(CheckPaths(arg)), callback)]
    ensures WellFormed(s.bus) ==> WellFormed(r.bus)
  {
    s.(bus := On(s.bus, STATE_CHANGED, callback, Some(CheckPaths(arg)), guid))
  }

  /** `remove_observer(guid)`. */
  function RemoveObserver(s: Store, guid: Guid): (r: Store)
    ensures r == s.(bus := r.bus)
    ensures guid !in Ids(Table(r.bus, STATE_CHANGED))
    ensures WellFormed(s.bus) ==> WellFormed(r.bus)
  {
    s.(bus := Off(s.bus, STATE_CHANGED, guid))
  }

  /** An observer's handler is called on a change at `changed`: it has no check, or its observed paths match. */
  predicate Calls(h: Handle<seq<Path>>, changed: Path) {
    h.check.None? || ObserverCheck(h.check.value, changed)
  }

  /** The observers a STATE_CHANGED event at `changed` calls, in subscription order. */
  function Notified(s: Store, changed: Path): (r: seq<Guid>)
    ensures forall g :: g in r <==> exists i :: 0 <= i < |Table(s.bus, STATE_CHANGED)| && Table(s.bus, STATE_CHANGED)[i].id == g && Calls(Table(s.bus, STATE_CHANGED)[i], changed)
  {
    var accepts := (checks: seq<Path>, p: Path) => ObserverCheck(checks, p);
    assert forall h :: Calls(h, changed) <==> Accepts(h, changed, accepts);
    Fire(s.bus, STATE_CHANGED, changed, accepts)
  }
}

=== FILE: store_laws.dfy ===
/**
 What the store promises, stated over the model: the write gate, `set_property`, the
 history entry a commit folds, update groups, undo and redo, and observers.
 */
module StoreLaws {
  import opened Wrappers
  import opened Json
  import opened Utils
  import opened Tree
  import opened Paths
  import opened EventManager
  import opened Store

  /** `path` reaches a container, so an accessor view sits there. */
  predicate HasView(s: Store, path: Path) {
    ReachesContainer(Obj(s.root), path)
  }

  /** The store after a write keeps the root an object, so reading it is reading the assigned tree. */
  lemma WrittenRoot(s: Store, path: Path, key: string, value: Json)
    requires HasView(s, path) && (s.mutating || s.silent)
    ensures Obj(Write(s, path, key, value).store.root) == Assign(Obj(s.root), path, key, value)
  {
  }

  // ---------------------------------------------------------------------------
  // The write gate
  // ---------------------------------------------------------------------------

  /** While mutating or silently modifying, a write through a view reads back (any key of an object, an index key of an array). */
  lemma WriteReadsBack(s: Store, path: Path, key: string, value: Json)
    requires HasView(s, path) && (s.mutating || s.silent)
    requires GetValueByPath(s, path).value.Obj? || ParseIndex(key).Some?
    ensures Write(s, path, key, value).Done?
    ensures GetValueByPath(Write(s, path, key, value).store, path + [key]) == Ok(value)
  {
    WrittenRoot(s, path, key, value);
    AssignReadsBack(Obj(s.root), path, key, value);
  }

  /** A write through a view leaves every path through another key of that container reading as before. */
  lemma WriteKeepsOtherKeys(s: Store, path: Path, key: string, key': string, rest: Path, value: Json)
    requires HasView(s, path) && key != key'
    requires GetValueByPath(s, path).value.Arr? ==>
      ParseIndex(key).Some? && ParseIndex(key).value < |GetValueByPath(s, path).value.items|
    ensures GetValueByPath(Write(s, path, key, value).store, path + [key'] + rest) == GetValueByPath(s, path + [key'] + rest)
  {
    if s.mutating || s.silent {
      WrittenRoot(s, path, key, value);
      AssignOtherKey(Obj(s.root), path, key, key', rest, value);
    }
  }

  /** A write through a view leaves every path that parts ways with the view's path reading as before. */
  lemma WriteKeepsDisjointPaths(s: Store, path: Path, key: string, q: Path, value: Json)
    requires HasView(s, path) && Disjoint(path, q)
    ensures GetValueByPath(Write(s, path, key, value).store, q) == GetValueByPath(s, q)
  {
    if s.mutating || s.silent {
      WrittenRoot(s, path, key, value);
      AssignDisjoint(Obj(s.root), path, key, q, value);
    }
  }

  /** A write keeps the view it went through in place, still an object if it was one. */
  lemma WriteKeepsView(s: Store, path: Path, key: string, value: Json)
    requires HasView(s, path)
    ensures HasView(Write(s, path, key, value).store, path)
    ensures GetValueByPath(s, path).value.Obj? ==> GetValueByPath(Write(s, path, key, value).store, path).value.Obj?
  {
    if s.mutating || s.silent {
      WrittenRoot(s, path, key, value);
      AssignKeepsView(Obj(s.root), path, key, value);
    }
  }

  // ---------------------------------------------------------------------------
  // set_property
  // ---------------------------------------------------------------------------

  function FieldKeys(fields: seq<(string, Json)>): set<string> {
    set i | 0 <= i < |fields| :: fields[i].0
  }

  predicate DistinctKeys(fields: seq<(string, Json)>) {
    forall i, j :: 0 <= i < j < |fields| ==> fields[i].0 != fields[j].0
  }

  /**
   `r` is `s` after assigning `fields` on the object view at `path`: every field reads
   back, every other key of the view and every path parting ways with `path` reads as
   before.
   */
  ghost predicate FieldsWritten(s: Store, r: Store, path: Path, fields: seq<(string, Json)>) {
    && HasView(r, path) && GetValueByPath(r, path).value.Obj?
    && (forall i :: 0 <= i < |fields| ==> GetValueByPath(r, path + [fields[i].0]) == Ok(fields[i].1))
    && (forall k, rest :: k !in FieldKeys(fields) ==> GetValueByPath(r, path + [k] + rest) == GetValueByPath(s, path + [k] + rest))
    && (forall q :: Disjoint(path, q) ==> GetValueByPath(r, q) == GetValueByPath(s, q))
  }

  lemma {:induction false} WriteFieldsEffect(s: Store, path: Path, fields: seq<(string, Json)>)
    requires (s.mutating || s.silent) && HasView(s, path) && GetValueByPath(s, path).value.Obj?
    requires DistinctKeys(fields)
    ensures WriteFields(s, path, fields).Done?
    ensures FieldsWritten(s, WriteFields(s, path, fields).store, path, fields)
    decreases |fields|
  {
    if fields != [] {
      var (k0, v0) := fields[0];
      var s1 := Write(s, path, k0, v0).store;
      WriteReadsBack(s, path, k0, v0);
      WriteKeepsView(s, path, k0, v0);
      var tail := fields[1..];
      assert DistinctKeys(tail) by {
        forall i, j | 0 <= i < j < |tail|
          ensures tail[i].0 != tail[j].0
        {
          assert tail[i] == fields[i + 1] && tail[j] == fields[j + 1];
        }
      }
      WriteFieldsEffect(s1, path, tail);
      var r := WriteFields(s, path, fields).store;
      assert r == WriteFields(s1, path, tail).store;
      assert FieldsWritten(s1, r, path, tail);
      assert k0 !in FieldKeys(tail) by {
        forall j | 0 <= j < |tail|
          ensures tail[j].0 != k0
        {
          assert tail[j] == fields[j + 1];
        }
      }
      forall i | 0 <= i < |fields|
        ensures GetValueByPath(r, path + [fields[i].0]) == Ok(fields[i].1)
      {
        if i == 0 {
          assert path + [k0] + [] == path + [k0];
        } else {
          assert fields[i] == tail[i - 1];
        }
      }
      forall k, rest | k !in FieldKeys(fields)
        ensures GetValueByPath(r, path + [k] + rest) == GetValueByPath(s, path + [k] + rest)
      {
        assert k != k0 by {
          assert fields[0].0 in FieldKeys(fields);
        }
        assert k !in FieldKeys(tail) by {
          forall j | 0 <= j < |tail|
            ensures tail[j].0 != k
          {
            assert tail[j] == fields[j + 1];
          }
        }
        WriteKeepsOtherKeys(s, path, k0, k, rest, v0);
      }
      forall q | Disjoint(path, q)
        ensures GetValueByPath(r, q) == GetValueByPath(s, q)
      {
        WriteKeepsDisjointPaths(s, path, k0, q, v0);
      }
    }
  }

  /**
   Committing the built-in `set_property` on the object at `path` makes each field of
   the payload hold its value there and changes nothing else in the tree.
   */
  lemma SetPropertyEffect(s: Store, path: Path, fields: seq<(string, Json)>)
    requires SET_PROPERTY in s.mutations
    requires HasView(s, path) && GetValueByPath(s, path).value.Obj? && DistinctKeys(fields)
    ensures Commit(s, SET_PROPERTY, SetProperty(path, fields)).Done?
    ensures FieldsWritten(s, Commit(s, SET_PROPERTY, SetProperty(path, fields)).store, path, fields)
  {
    var s1 := s.(mutating := true);
    WriteFieldsEffect(s1, path, fields);
  }

  // ---------------------------------------------------------------------------
  // Commits and the history entry they fold
  // ---------------------------------------------------------------------------

  /** In the overlay a key takes its value from the last record that holds it. */
  lemma {:induction false} OverlayLastWins(m: map<string, Json>, records: seq<Entry>, k: string, i: nat)
    requires i < |records| && k in records[i].stateData
    requires forall j :: i < j < |records| ==> k !in records[j].stateData
    ensures k in Overlay(m, records) && Overlay(m, records)[k] == records[i].stateData[k]
    decreases |records|
  {
    var m' := m + records[0].stateData;
    var tail := records[1..];
    assert Overlay(m, records) == Overlay(m', tail);
    if i == 0 {
      OverlayUntouched(m', tail, k);
    } else {
      assert tail[i - 1] == records[i];
      assert forall j :: i - 1 < j < |tail| ==> tail[j] == records[j + 1];
      OverlayLastWins(m', tail, k, i - 1);
    }
  }

  /** A key no record holds keeps its value in the overlay, and is there exactly when it was before. */
  lemma {:induction false} OverlayUntouched(m: map<string, Json>, records: seq<Entry>, k: string)
    requires forall j :: 0 <= j < |records| ==> k !in records[j].stateData
    ensures k in Overlay(m, records) <==> k in m
    ensures k in m ==> Overlay(m, records)[k] == m[k]
    decreases |records|
  {
    if records != [] {
      var tail := records[1..];
      assert forall j :: 0 <= j < |tail| ==> tail[j] == records[j + 1];
      OverlayUntouched(m + records[0].stateData, tail, k);
    }
  }

  /** Overlaying an empty record changes nothing. */
  lemma {:induction false} OverlayEmptyRecord(m: map<string, Json>, records: seq<Entry>, kind: string)
    ensures Overlay(m, records + [Entry(kind, map[])]) == Overlay(m, records)
    decreases |records|
  {
    if records == [] {
      assert Overlay(m, [Entry(kind, map[])]) == Overlay(m + map[], []);
      assert m + map[] == m;
    } else {
      assert (records + [Entry(kind, map[])])[1..] == records[1..] + [Entry(kind, map[])];
      OverlayEmptyRecord(m + records[0].stateData, records[1..], kind);
    }
  }

  /**
   A commit with no open group pushes one "Mutation" entry: the state the mutation left,
   overlaid in order with every record in the batch, the ones from before the commit
   and the ones its writes made.
   */
  lemma CommitEntry(s: Store, key: string, body: Body)
    requires Commit(s, key, body).Done? && !Truthy(s.checkpoint)
    ensures Commit(s, key, body).store.root == RunBody(s.(mutating := true), body).store.root
    ensures Commit(s, key, body).store.history == s.history +
      [Entry(MUTATION, Overlay(RunBody(s.(mutating := true), body).store.root, RunBody(s.(mutating := true), body).store.batch))]
  {
  }

  /** While mutating, assignments each append one batch record and announce the path they wrote. */
  lemma {:induction false} WriteAllAnnounces(s: Store, writes: seq<Assignment>)
    requires s.mutating && WriteAll(s, writes).Done?
    ensures |WriteAll(s, writes).store.batch| == |s.batch| + |writes|
    ensures WriteAll(s, writes).store.changes ==
      s.changes + seq(|writes|, i requires 0 <= i < |writes| => writes[i].path + [writes[i].key])
    decreases |writes|
  {
    if writes != [] {
      var s1 := Write(s, writes[0].path, writes[0].key, writes[0].value).store;
      WriteAllAnnounces(s1, writes[1..]);
      var tail := seq(|writes| - 1, i requires 0 <= i < |writes| - 1 => writes[1..][i].path + [writes[1..][i].key]);
      var all := seq(|writes|, i requires 0 <= i < |writes| => writes[i].path + [writes[i].key]);
      assert all == [writes[0].path + [writes[0].key]] + tail;
    }
  }

  /** A failed commit leaves the mutating flag raised: later writes through the views are recorded and announced. */
  lemma ThrownCommitStaysMutating(s: Store, key: string, body: Body, path: Path, k: string, value: Json)
    requires Commit(s, key, body).Threw?
    requires HasView(Commit(s, key, body).store, path)
    ensures Commit(s, key, body).store.mutating
    ensures Write(Commit(s, key, body).store, path, k, value).store.changes == Commit(s, key, body).store.changes + [path + [k]]
  {
  }

  // ---------------------------------------------------------------------------
  // Undo and redo
  // ---------------------------------------------------------------------------

  /** With no group open, `undo` then `redo` gives back both stacks and reloads the entry undone. */
  lemma UndoThenRedo(s: Store)
    requires |s.history| >= 2 && !Truthy(s.checkpoint)
    ensures Undo(s).Done? && Redo(Undo(s).store).Done?
    ensures Redo(Undo(s).store).store.history == s.history
    ensures Redo(Undo(s).store).store.future == s.future
    ensures Redo(Undo(s).store).store.root == s.history[|s.history| - 1].stateData
  {
    var n := |s.history|;
    assert s.history[..n - 1] + [s.history[n - 1]] == s.history;
  }

  /** With no group open, `redo` then `undo` gives back both stacks and reloads the entry on top. */
  lemma RedoThenUndo(s: Store)
    requires s.future != [] && |s.history| >= 1 && !Truthy(s.checkpoint)
    ensures Redo(s).Done? && Undo(Redo(s).store).Done?
    ensures Undo(Redo(s).store).store.history == s.history
    ensures Undo(Redo(s).store).store.future == s.future
    ensures Undo(Redo(s).store).store.root == s.history[|s.history| - 1].stateData
  {
    var h := s.history + [s.future[0]];
    assert h[..|h| - 1] == s.history;
    assert [s.future[0]] + s.future[1..] == s.future;
  }

  /** Right after `setup_state` there is nothing to undo: `undo` throws, having popped the only entry. */
  lemma NoUndoAfterSetup(s: Store, state: map<string, Json>)
    ensures Undo(SetupState(s, state)).Threw?
    ensures Undo(SetupState(s, state)).store.history == []
    ensures Undo(SetupState(s, state)).error == Message(NO_HISTORY)
  {
  }

  // ---------------------------------------------------------------------------
  // Update groups
  // ---------------------------------------------------------------------------

  /**
   While a group is open, commits leave the history alone and keep their records in the
   batch; closing the group pushes one entry, the state overlaid with every record the
   group collected (the empty "BatchedMutation" record adds nothing), and clears the
   checkpoint.
   */
  lemma GroupAddsOneEntry(s: Store, arg: PathArg, commits: seq<(string, Body)>)
    requires WillUpdate(s, arg).Done? && Truthy(WillUpdate(s, arg).store.checkpoint)
    requires CommitAll(WillUpdate(s, arg).store, commits).Done?
    requires DidUpdate(CommitAll(WillUpdate(s, arg).store, commits).store, arg).Done?
    ensures DidUpdate(CommitAll(WillUpdate(s, arg).store, commits).store, arg).store.history ==
      s.history + [Entry(MUTATION, Overlay(CommitAll(WillUpdate(s, arg).store, commits).store.root,
                                           CommitAll(WillUpdate(s, arg).store, commits).store.batch))]
    ensures DidUpdate(CommitAll(WillUpdate(s, arg).store, commits).store, arg).store.checkpoint == Null
    ensures DidUpdate(CommitAll(WillUpdate(s, arg).store, commits).store, arg).store.batch == []
  {
    var inGroup := CommitAll(WillUpdate(s, arg).store, commits).store;
    OverlayEmptyRecord(inGroup.root, inGroup.batch, BATCHED_MUTATION);
  }

  /**
   `will_update` on a path holding null, 0, false or "" keeps that falsy value as the
   checkpoint, which `commit` reads as no group at all: the next commit records its
   history entry at once.
   */
  lemma FalsyCheckpointOpensNoGroup(s: Store, arg: PathArg, key: string, body: Body)
    requires WillUpdate(s, arg).Done? && !Truthy(WillUpdate(s, arg).store.checkpoint)
    requires Commit(WillUpdate(s, arg).store, key, body).Done?
    ensures |Commit(WillUpdate(s, arg).store, key, body).store.history| == |s.history| + 1
    ensures Commit(WillUpdate(s, arg).store, key, body).store.batch == []
  {
  }

  /** An action that makes one commit has that commit's effect; one that makes none changes nothing. */
  lemma DispatchOneCommit(s: Store, action: string, key: string, body: Body)
    requires action in s.actions
    ensures Dispatch(s, action, [(key, body)]) == Commit(s, key, body)
    ensures Dispatch(s, action, []) == Done(s)
  {
    assert [(key, body)][1..] == [];
    match Commit(s, key, body)
    case Threw(_, _) =>
    case Done(s') => assert CommitAll(s', []) == Done(s');
  }

  /** Without an open group, `did_update` only announces the change. */
  lemma DidUpdateOnlyFires(s: Store, arg: PathArg)
    requires !Truthy(s.checkpoint)
    ensures DidUpdate(s, arg) == Done(s.(changes := s.changes + [EventPath(arg)]))
  {
  }

  // ---------------------------------------------------------------------------
  // Observers
  // ---------------------------------------------------------------------------

  /**
   A new observer is called on a change exactly when its predicate accepts the changed
   path, after every observer subscribed before it.
   */
  lemma ObserverNotifiedIffMatches(s: Store, arg: ObserverArg, callback: Callback, guid: Guid, changed: Path)
    requires guid !in Ids(Table(s.bus, STATE_CHANGED))
    ensures Notified(AddObserver(s, arg, callback, guid), changed) ==
      Notified(s, changed) + (if ObserverCheck(CheckPaths(arg), changed) then [guid] else [])
    ensures guid in Notified(AddObserver(s, arg, callback, guid), changed) <==> ObserverCheck(CheckPaths(arg), changed)
  {
    var accepts := (checks: seq<Path>, p: Path) => ObserverCheck(checks, p);
    FireAfterOn(s.bus, STATE_CHANGED, callback, Some(CheckPaths(arg)), guid, changed, accepts);
    assert guid !in Notified(s, changed);
  }

  /** A removed observer is never called again. */
  lemma RemovedObserverSilent(s: Store, guid: Guid, changed: Path)
    ensures guid !in Notified(RemoveObserver(s, guid), changed)
  {
    FireAfterOff(s.bus, STATE_CHANGED, guid, changed, (checks: seq<Path>, p: Path) => ObserverCheck(checks, p));
  }
}

=== FILE: tree.dfy ===
/**
 Property access on the state tree: reading `current[part]` step by step along a path
 (`get_value_by_path`, src/store.ts:282-288) and replacing the value a path addresses,
 which is what an assignment through an accessor view does to the canonical tree.
 */
module Tree {
  import opened Wrappers
  import opened Json
  import opened Utils

  /** A sequence of property names from the root. */
  type Path = seq<string>

  function Holes(n: nat): (r: seq<Json>)
    ensures |r| == n && forall i :: 0 <= i < n ==> r[i] == Undef
  {
    seq(n, _ => Undef)
  }

  /** `j[k]`: reading a property of undefined or null throws; other primitives have none but a string's characters and length. */
  function GetField(j: Json, k: string): (r: Result<Json, Exception>)
    ensures r.Err? <==> j == Undef || j == Null
    ensures r.Err? ==> r.error == TypeError
    ensures j.Obj? && k !in j.fields ==> r == Ok(Undef)
    ensures !IsContainer(j) && !j.Str? && r.Ok? ==> r.value == Undef
  {
    match j
    case Undef => Err(TypeError)
    case Null => Err(TypeError)
    case Obj(m) => Ok(Lookup(m, k))
    case Arr(s) =>
      Ok(match ParseIndex(k)
         case Some(i) => if i < |s| then s[i] else Undef
         case None => if k == "length" then Num(|s|) else Undef)
    case Str(s) =>
      Ok(match ParseIndex(k)
         case Some(i) => if i < |s| then Str([s[i]]) else Undef
         case None => if k == "length" then Num(|s|) else Undef)
    case _ => Ok(Undef)
  }

  /** `current = current[part]` for every part of `path`, from `j`. */
  function GetPath(j: Json, path: Path): (r: Result<Json, Exception>)
    decreases |path|
    ensures r.Err? ==> r.error == TypeError && path != []
  {
    if path == [] then Ok(j)
    else
      match GetField(j, path[0])
      case Err(e) => Err(e)
      case Ok(child) => GetPath(child, path[1..])
  }

  /** The path leads to an object or array, so an assignment through it reaches an accessor view. */
  predicate ReachesContainer(j: Json, path: Path) {
    GetPath(j, path).Ok? && IsContainer(GetPath(j, path).value)
  }

  /**
   `c[k] = v` on a container. An array grows when the index lies at or past its end (the
   gap reads as undefined) and is resized by a non-negative numeric `length`.
   */
  function PutField(c: Json, k: string, v: Json): (r: Json)
    requires IsContainer(c)
    ensures r.Obj? == c.Obj? && r.Arr? == c.Arr?
    ensures c.Obj? ==> r.fields.Keys == c.fields.Keys + {k}
    ensures c.Arr? && ParseIndex(k).Some? ==>
      |r.items| == (if ParseIndex(k).value < |c.items| then |c.items| else ParseIndex(k).value + 1)
    ensures c.Arr? && ParseIndex(k).None? && k == "length" && v.Num? && v.n >= 0 ==>
      |r.items| == v.n && forall i :: 0 <= i < v.n && i < |c.items| ==> r.items[i] == c.items[i]
    ensures c.Arr? && ParseIndex(k).None? && !(k == "length" && v.Num? && v.n >= 0) ==> r == c
  {
    match c
    case Obj(m) => Obj(m[k := v])
    case Arr(s) =>
      match ParseIndex(k)
      case Some(i) =>
        if i < |s| then Arr(s[i := v]) else Arr(s + Holes(i - |s|) + [v])
      case None =>
        if k == "length" && v.Num? && v.n >= 0 then
          Arr(if v.n <= |s| then s[..v.n] else s + Holes(v.n - |s|))
        else c
  }

  /** The tree `t` with the value at `path` replaced by `v`. */
  function PutPath(t: Json, path: Path, v: Json): (r: Json)
    decreases |path|
    ensures path != [] ==> r.Obj? == t.Obj?
  {
    if path == [] then v
    else if !IsContainer(t) then t
    else PutField(t, path[0], PutPath(GetField(t, path[0]).value, path[1..], v))
  }

  /** `c[key] = v` on the container `c` that `path` reaches: the tree with that one property replaced. */
  function Assign(t: Json, path: Path, key: string, v: Json): (r: Json)
    requires ReachesContainer(t, path)
    ensures r.Obj? == t.Obj?
    ensures GetPath(r, path) == Ok(PutField(GetPath(t, path).value, key, v))
  {
    PutPathReadsBack(t, path, PutField(GetPath(t, path).value, key, v));
    PutPath(t, path, PutField(GetPath(t, path).value, key, v))
  }

  /** Two paths that part ways at some position: neither addresses a part of the other. */
  predicate Disjoint(p: Path, q: Path) {
    exists i :: 0 <= i < |p| && i < |q| && p[i] != q[i]
  }

  // ---------------------------------------------------------------------------
  // Lemmas
  // ---------------------------------------------------------------------------

  /** Walking `p + q` is walking `p`, then `q` from where `p` ended. */
  lemma {:induction false} GetPathAppend(j: Json, p: Path, q: Path)
    ensures GetPath(j, p + q) == (match GetPath(j, p) case Err(e) => Err(e) case Ok(c) => GetPath(c, q))
    decreases |p|
  {
    if p == [] {
      assert p + q == q;
    } else {
      assert (p + q)[0] == p[0] && (p + q)[1..] == p[1..] + q;
      match GetField(j, p[0])
      case Err(_) =>
      case Ok(child) => GetPathAppend(child, p[1..], q);
    }
  }

  /** The read reached undefined or null, whose properties cannot be read. */
  predicate Nullish(r: Result<Json, Exception>) {
    r == Ok(Undef) || r == Ok(Null)
  }

  /** A walk throws exactly when some proper prefix of the path reads undefined or null. */
  lemma {:induction false} GetPathFailsAtNullish(j: Json, path: Path)
    ensures GetPath(j, path).Err? <==> exists i :: 0 <= i < |path| && Nullish(GetPath(j, path[..i]))
    decreases |path|
  {
    if path != [] {
      assert path[..0] == [];
      match GetField(j, path[0])
      case Err(_) =>
        assert Nullish(GetPath(j, path[..0]));
      case Ok(child) =>
        GetPathFailsAtNullish(child, path[1..]);
        forall i | 1 <= i <= |path|
          ensures GetPath(j, path[..i]) == GetPath(child, path[1..][..i - 1])
        {
          assert path[..i][0] == path[0] && path[..i][1..] == path[1..][..i - 1];
        }
        if GetPath(j, path).Err? {
          var i :| 0 <= i < |path[1..]| && Nullish(GetPath(child, path[1..][..i]));
          assert Nullish(GetPath(j, path[..i + 1]));
        }
        if exists i :: 0 <= i < |path| && Nullish(GetPath(j, path[..i])) {
          var i :| 0 <= i < |path| && Nullish(GetPath(j, path[..i]));
          assert i != 0;
          assert Nullish(GetPath(child, path[1..][..i - 1]));
        }
    }
  }

  /** Below a primitive no path reaches an object or array. */
  lemma {:induction false} NoContainerBelowPrimitive(j: Json, path: Path)
    ensures !IsContainer(j) && path != [] ==> !ReachesContainer(j, path)
    decreases |path|
  {
    if !IsContainer(j) && path != [] {
      match GetField(j, path[0])
      case Err(_) =>
      case Ok(child) =>
        assert !IsContainer(child);
        assert GetPath(j, path) == GetPath(child, path[1..]);
        NoContainerBelowPrimitive(child, path[1..]);
    }
  }

  /** The first step of a path that reaches a container names an existing key or an in-range index. */
  lemma FirstStepExists(t: Json, path: Path)
    requires IsContainer(t) && path != [] && ReachesContainer(t, path)
    ensures t.Obj? ==> path[0] in t.fields
    ensures t.Arr? ==> ParseIndex(path[0]).Some? && ParseIndex(path[0]).value < |t.items|
  {
    var child := GetField(t, path[0]).value;
    assert GetPath(t, path) == GetPath(child, path[1..]);
    NoContainerBelowPrimitive(child, path[1..]);
    assert IsContainer(child);
  }

  /** A written key reads back as the written value (objects, and arrays at an index key). */
  lemma PutFieldReadsBack(c: Json, k: string, v: Json)
    requires IsContainer(c) && (c.Obj? || ParseIndex(k).Some?)
    ensures GetField(PutField(c, k, v), k) == Ok(v)
  {
  }

  /** Writing an existing key or in-range index leaves every other key's value as it was. */
  lemma PutFieldOtherKey(c: Json, k: string, k': string, v: Json)
    requires IsContainer(c) && k != k'
    requires c.Arr? ==> ParseIndex(k).Some? && ParseIndex(k).value < |c.items|
    ensures GetField(PutField(c, k, v), k') == GetField(c, k')
  {
    if c.Arr? && ParseIndex(k').Some? && ParseIndex(k').value == ParseIndex(k).value {
      IndexKeysInjective(k, k', ParseIndex(k).value);
    }
  }

  /** After replacing the value at a path that reaches a container, the path reads back the new value. */
  lemma {:induction false} PutPathReadsBack(t: Json, path: Path, v: Json)
    requires ReachesContainer(t, path)
    ensures GetPath(PutPath(t, path, v), path) == Ok(v)
    decreases |path|
  {
    if path != [] {
      NoContainerBelowPrimitive(t, path);
      FirstStepExists(t, path);
      var child := GetField(t, path[0]).value;
      PutPathReadsBack(child, path[1..], v);
      PutFieldReadsBack(t, path[0], PutPath(child, path[1..], v));
    }
  }

  /** Replacing the value at one path leaves every disjoint path reading as before. */
  lemma {:induction false} PutPathDisjoint(t: Json, path: Path, q: Path, v: Json)
    requires ReachesContainer(t, path) && Disjoint(path, q)
    ensures GetPath(PutPath(t, path, v), q) == GetPath(t, q)
    decreases |path|
  {
    NoContainerBelowPrimitive(t, path);
    FirstStepExists(t, path);
    var child := GetField(t, path[0]).value;
    var child' := PutPath(child, path[1..], v);
    if path[0] != q[0] {
      PutFieldOtherKey(t, path[0], q[0], child');
    } else {
      var i :| 0 <= i < |path| && i < |q| && path[i] != q[i];
      assert path[1..][i - 1] != q[1..][i - 1];
      PutPathDisjoint(child, path[1..], q[1..], v);
      PutFieldReadsBack(t, path[0], child');
    }
  }

  /** Below a replaced path, reading continues inside the new value. */
  lemma PutPathBelow(t: Json, path: Path, v: Json, rest: Path)
    requires ReachesContainer(t, path)
    ensures GetPath(PutPath(t, path, v), path + rest) == GetPath(v, rest)
  {
    GetPathAppend(PutPath(t, path, v), path, rest);
    PutPathReadsBack(t, path, v);
  }

  /** An assigned key reads back as the assigned value (on an object, or on an array at an index key). */
  lemma AssignReadsBack(t: Json, path: Path, key: string, v: Json)
    requires ReachesContainer(t, path)
    requires GetPath(t, path).value.Obj? || ParseIndex(key).Some?
    ensures GetPath(Assign(t, path, key, v), path + [key]) == Ok(v)
  {
    var c' := PutField(GetPath(t, path).value, key, v);
    PutPathBelow(t, path, c', [key]);
    PutFieldReadsBack(GetPath(t, path).value, key, v);
  }

  /** After an assignment the path still reaches the same container, now holding the assigned key. */
  lemma AssignKeepsView(t: Json, path: Path, key: string, v: Json)
    requires ReachesContainer(t, path)
    ensures GetPath(Assign(t, path, key, v), path) == Ok(PutField(GetPath(t, path).value, key, v))
    ensures ReachesContainer(Assign(t, path, key, v), path)
  {
    PutPathReadsBack(t, path, PutField(GetPath(t, path).value, key, v));
  }

  /** Assigning one key of a container leaves every path through another of its keys reading as before. */
  lemma AssignOtherKey(t: Json, path: Path, key: string, key': string, rest: Path, v: Json)
    requires ReachesContainer(t, path) && key != key'
    requires GetPath(t, path).value.Arr? ==> ParseIndex(key).Some? && ParseIndex(key).value < |GetPath(t, path).value.items|
    ensures GetPath(Assign(t, path, key, v), path + [key'] + rest) == GetPath(t, path + [key'] + rest)
  {
    var c := GetPath(t, path).value;
    var c' := PutField(c, key, v);
    assert path + [key'] + rest == path + ([key'] + rest);
    PutPathBelow(t, path, c', [key'] + rest);
    GetPathAppend(t, path, [key'] + rest);
    PutFieldOtherKey(c, key, key', v);
  }

  /** Assigning a key below `path` leaves every path that parts ways with `path` reading as before. */
  lemma AssignDisjoint(t: Json, path: Path, key: string, q: Path, v: Json)
    requires ReachesContainer(t, path) && Disjoint(path, q)
    ensures GetPath(Assign(t, path, key, v), q) == GetPath(t, q)
  {
    PutPathDisjoint(t, path, q, PutField(GetPath(t, path).value, key, v));
  }
}

=== FILE: utils.dfy ===
/**
 The deep utilities of the library (src/lib/utils.ts): value classification, the
 structural diff used by update groups, deep copy, and the throwing `error` helper.
 */
module Utils {
  import opened Wrappers
  import opened Json

  /** The values the library throws. */
  datatype Exception =
    | Message(text: string)   // a thrown string
    | TypeError               // a property access on undefined/null, a call of a non-function, a strict-mode write to a primitive
    | SyntaxError             // `JSON.parse` of a value that is not JSON text

  /** The event every state change is announced on. */
  const STATE_CHANGED: string := "stateChanged"

  /** `error(x, ...)`: always throws its first argument and never returns normally. */
  function Error(x: Exception): (r: Result<(), Exception>)
    ensures r.Err? && r.error == x
  {
    Err(x)
  }

  /** `isObj`: a non-null object that is not an array. */
  function IsObj(j: Json): (r: bool)
    ensures r ==> !IsArray(j)
    ensures r ==> j != Null
  {
    j.Obj?
  }

  /** `isArray`: the runtime tag says "array" and `Array.isArray` agrees. */
  function IsArray(j: Json): (r: bool)
    ensures r ==> j != Null
  {
    j.Arr?
  }

  /** `deepCopy` by a JSON round trip; on the value model it is the identity. */
  function DeepCopy(j: Json): (r: Json)
    ensures r == j
  {
    j
  }

  /** `o[key]` on a plain object: the own value, or undefined. */
  function Lookup(o: map<string, Json>, key: string): Json {
    if key in o then o[key] else Undef
  }

  /**
   `a === b`. Primitives compare by value. Arrays and objects compare by reference; the
   value model treats two containers as distinct references, which is what the store's
   only caller sees, since it compares a deep copy against the live tree.
   */
  predicate StrictEq(a: Json, b: Json): (r: bool)
    ensures r ==> a == b
    ensures IsContainer(a) || IsContainer(b) ==> !r
    ensures !IsContainer(a) ==> (r <==> a == b)
  {
    a == b && !IsContainer(a)
  }

  /**
   `deep_diff(o1, o2)` on two plain objects: `false` when nothing differs, otherwise an
   object holding, for every differing key, `o2`'s value (or the nested diff where both
   sides hold plain objects).
   */
  function DeepDiff(o1: map<string, Json>, o2: map<string, Json>): (r: Json)
    decreases Obj(o1), 2
    ensures r == Bool(false) || (r.Obj? && |r.fields| > 0)
    ensures r == Bool(false) <==> Changes(o1, o2) == map[]
    ensures r.Obj? ==> r.fields == Changes(o1, o2)
  {
    var diff := Changes(o1, o2);
    if diff == map[] then Bool(false) else Obj(diff)
  }

  /**
   `deep_diff(o1, o2)` on any two values. `for...in` visits own enumerable keys, so the
   diff of two containers is the diff of their own entries; testing `key in o` on a
   value that is not an object throws, as does reading `o2[key]` of undefined or null.
   */
  function DiffValues(o1: Json, o2: Json): (r: Result<Json, Exception>)
    ensures r.Err? <==> (OwnEntries(o1) != map[] && !IsContainer(o2)) || (OwnEntries(o2) != map[] && !IsContainer(o1))
    ensures r.Err? ==> r.error == TypeError
    ensures o1.Obj? && o2.Obj? ==> r == Ok(DeepDiff(o1.fields, o2.fields))
    ensures r.Ok? ==> r.value == Bool(false) || (r.value.Obj? && |r.value.fields| > 0)
  {
    var e1, e2 := OwnEntries(o1), OwnEntries(o2);
    if (e1 != map[] && !IsContainer(o2)) || (e2 != map[] && !IsContainer(o1)) then Err(TypeError)
    else Ok(DeepDiff(e1, e2))
  }

  /** The `diff` object `deep_diff` builds before deciding whether to return it. */
  function Changes(o1: map<string, Json>, o2: map<string, Json>): (diff: map<string, Json>)
    decreases Obj(o1), 1
    ensures forall k :: k in diff ==> k in o1 || k in o2
  {
    var fromFirst := map k | k in o1 && KeyChange(o1, o2, k).Some? :: KeyChange(o1, o2, k).value;
    var onlySecond := map k | k in o2 && k !in o1 :: o2[k];
    fromFirst + onlySecond
  }

  /** The first loop's verdict on one own key of `o1`: the entry to record, if any. */
  function KeyChange(o1: map<string, Json>, o2: map<string, Json>, k: string): (r: Option<Json>)
    requires k in o1
    decreases Obj(o1), 0
  {
    var v1 := o1[k];
    var v2 := Lookup(o2, k);
    if !IsObj(v1) || !IsObj(v2) then
      if k !in o2 || !StrictEq(v1, v2) then Some(v2) else None
    else
      assert v1 in o1.Values;
      var sub := DeepDiff(v1.fields, v2.fields);
      if Truthy(sub) then Some(sub) else None
  }

  /**
   The first loop's verdict on a key of `o1`: a key `o2` lacks is recorded as undefined; a
   key is skipped only when both sides hold plain objects or the same primitive; and a
   recorded entry is `o2`'s value unless both sides hold plain objects.
   */
  lemma KeyChangeVerdict(o1: map<string, Json>, o2: map<string, Json>, k: string)
    requires k in o1
    ensures k !in o2 ==> KeyChange(o1, o2, k) == Some(Undef)
    ensures KeyChange(o1, o2, k).None? && !(o1[k].Obj? && o2[k].Obj?) ==> o1[k] == o2[k] && !IsContainer(o1[k])
    ensures KeyChange(o1, o2, k).Some? && !(o1[k].Obj? && Lookup(o2, k).Obj?) ==> KeyChange(o1, o2, k).value == Lookup(o2, k)
  {
  }

  /** A key only `o2` owns is reported with `o2`'s value. */
  lemma DiffReportsAddedKey(o1: map<string, Json>, o2: map<string, Json>, k: string)
    requires k in o2 && k !in o1
    ensures DeepDiff(o1, o2).Obj?
    ensures k in DeepDiff(o1, o2).fields && DeepDiff(o1, o2).fields[k] == o2[k]
  {
    assert k in Changes(o1, o2);
  }

  /** A key of `o1` that `o2` lacks is reported with the undefined value. */
  lemma DiffReportsRemovedKey(o1: map<string, Json>, o2: map<string, Json>, k: string)
    requires k in o1 && k !in o2
    ensures k in Changes(o1, o2) && Changes(o1, o2)[k] == Undef
  {
    assert KeyChange(o1, o2, k) == Some(Undef);
    assert k in Changes(o1, o2);
  }

  /** Where both sides hold plain objects, the entry is the nested diff, present iff that diff is not `false`. */
  lemma DiffRecursesIntoObjects(o1: map<string, Json>, o2: map<string, Json>, k: string)
    requires k in o1 && k in o2 && o1[k].Obj? && o2[k].Obj?
    ensures k in Changes(o1, o2) <==> DeepDiff(o1[k].fields, o2[k].fields) != Bool(false)
    ensures k in Changes(o1, o2) ==> Changes(o1, o2)[k] == DeepDiff(o1[k].fields, o2[k].fields)
  {
    var sub := DeepDiff(o1[k].fields, o2[k].fields);
    assert Truthy(sub) <==> sub != Bool(false);
    assert KeyChange(o1, o2, k) == if Truthy(sub) then Some(sub) else None;
  }

  /** A shared key whose values differ, and are not both plain objects, is reported with `o2`'s value. */
  lemma DiffReportsChangedValue(o1: map<string, Json>, o2: map<string, Json>, k: string)
    requires k in o1 && k in o2 && o1[k] != o2[k] && !(o1[k].Obj? && o2[k].Obj?)
    ensures k in Changes(o1, o2) && Changes(o1, o2)[k] == o2[k]
  {
    assert KeyChange(o1, o2, k) == Some(o2[k]);
  }

  /** An array on either side of a shared key is always reported: two arrays are never `===`. */
  lemma DiffReportsArrays(o1: map<string, Json>, o2: map<string, Json>, k: string)
    requires k in o1 && k in o2 && (o1[k].Arr? || o2[k].Arr?)
    ensures k in Changes(o1, o2) && Changes(o1, o2)[k] == o2[k]
  {
    assert KeyChange(o1, o2, k) == Some(o2[k]);
    assert k in Changes(o1, o2);
  }

  /** Equal primitives at a shared key are never reported. */
  lemma DiffSkipsEqualPrimitives(o1: map<string, Json>, o2: map<string, Json>, k: string)
    requires k in o1 && k in o2 && o1[k] == o2[k] && !IsContainer(o1[k])
    ensures k !in Changes(o1, o2)
  {
  }

  /** On array-free trees the diff is `false` exactly when the two trees are equal. */
  lemma {:induction false} DiffFalseIffEqual(o1: map<string, Json>, o2: map<string, Json>)
    requires ArrayFree(Obj(o1)) && ArrayFree(Obj(o2))
    ensures DeepDiff(o1, o2) == Bool(false) <==> o1 == o2
    decreases Obj(o1)
  {
    forall k | k in o1 && o1[k].Obj? && k in o2 && o2[k].Obj?
      ensures DeepDiff(o1[k].fields, o2[k].fields) == Bool(false) <==> o1[k] == o2[k]
    {
      assert o1[k] in o1.Values && o2[k] in o2.Values;
      DiffFalseIffEqual(o1[k].fields, o2[k].fields);
    }
    if DeepDiff(o1, o2) == Bool(false) {
      var diff := Changes(o1, o2);
      assert diff == map[];
      forall k | k in o2
        ensures k in o1
      {
        assert k !in o1 ==> k in diff;
      }
      forall k | k in o1
        ensures k in o2 && o1[k] == o2[k]
      {
        assert KeyChange(o1, o2, k).Some? ==> k in diff;
        assert o1[k] in o1.Values;
      }
      assert o1.Keys == o2.Keys;
    }
    if o1 == o2 {
      forall k | k in o1
        ensures KeyChange(o1, o2, k).None?
      {
        assert o1[k] in o1.Values;
      }
    }
  }
}

=== FILE: wrappers.dfy ===
/** Failure-compatible wrappers shared by every module of the model. */
module Wrappers {

  /** A value that may be missing. */
  datatype Option<+T> = None | Some(value: T)

  /** The outcome of a computation that either yields a value or throws. */
  datatype Result<+T, +E> = Ok(value: T) | Err(error: E) {

    predicate IsFailure() {
      Err?
    }

    function PropagateFailure<U>(): Result<U, E>
      requires Err?
    {
      Err(error)
    }

    function Extract(): T
      requires Ok?
    {
      value
    }
  }
}
